=== FILE: README.md ===
# Task-graph workflow: a Dafny model

This project models the core of a small Go package for running task graphs.
A `WorkFlow` owns a task-less `root` node and an `End` node. Its task marks the
workflow done. Callers add task nodes with `AddTaskNode`, which connects a node
either to the root or to each of its dependencies. `AutoConnectToEnd` then links
every childless edge target to `End`. `CheckDAG` is a breadth-first walk that
reports whether every registered edge was reached. `GoroutineExecuteEnv.execute`
visits a node in this order:

1. it asks the node's join counter whether every dependency has arrived;
2. it stops if the workflow is already done;
3. it records the context's error, if there is one;
4. it runs the pre-process hook, the task and the post-process hook;
5. it visits every child, spawning a goroutine for each child after the first.

Modules, leaves first:

- `Wrappers` (`wrappers.dfy`): `Option`.
- `Task` (`task.dfy`): the heap of nodes and edges and task options.
  - Pointers become indices.
  - An edge is its index in `Heap.edges`, so two edges with the same endpoints stay distinct.
  - It also holds `NewTaskNode`, `NewNilTaskNode`, `Name`, `connect` and `dependencySatisfied`.
- `Workflow` (`workflow.dfy`): the workflow record, `NewWorkFlow`, `done`, `errDone`, `AddTaskNode`, `ConnectToEnd` and `AutoConnectToEnd`.
  - `AutoConnectToEnd` has two loops.
  - The first collects the set of childless edge targets.
  - The second connects each of them to `End` in an order the caller cannot predict, because Go map iteration is unordered.
- `CheckDag` (`check_dag.dfy`): `CheckDAG` as a loop with invariants.
  - Its answer is characterised in graph terms: the edges have no cycle (some ranking of the nodes climbs along every edge), and every edge source other than the root has an incoming edge.
  - The walk is also written as plain functions with no condition on the root (`GoChildren`, `GoStep`, `GoSteps`). That version shows that the walk never ends on a cycle through the root, and `CheckDAGAnyRoot` is the corrected answer for every graph.
- `ExecuteEnv` (`execute_env.dfy`): execution.
  - Each call of `execute(ctx, wf, n)` is one atomic visit.
  - Child visits, both the one run inline and the spawned ones, become pending visits in a multiset.
  - A schedule, a sequence of choices, picks which pending visit runs next. Every interleaving of the goroutines at visit granularity is some schedule.
  - Each visit takes, from an oracle, what `ctx.Err()` returns and what the user task returns.
  - Task and hook bodies are opaque. They leave `PreProcess`, `Execute` and `PostProcess` events in a log.
- `Scenario` (`scenario.dfy`): the graph the package's tests build with `buildWf`, and `CheckDAG` accepting it.
- `BuiltRun` (`built_run.dfy`): error-free runs of that graph. Under every schedule each task runs at most once, and a run with nothing left pending has run every task exactly once and is done. One schedule is shown to get there.

Facts about the code that a reader might not expect:

- **The recorded error.**
  - `errDone` assigns the error unconditionally, so a later call overwrites an earlier error (`Workflow.ErrDoneLastWins`).
  - A visit that finds the workflow done stops before it can record anything. So under atomic visits the first error recorded is also the last (`ExecuteEnv.DoneIsFinal`).
  - The overwrite can only surface through the unsynchronised reads and writes inside concurrent visits, which are not modelled.
- **`AutoConnectToEnd` is not idempotent.**
  - A second call finds `End` childless and connects `End` to itself (`Workflow.AutoConnectTwiceLinksEndToItself`).
- **The terminal anchor has a task.**
  - `End` carries a closure task named "end" that calls `done` and returns nil. The model gives it the `EndBody` task.
- **What `CheckDAG` accepts.**
  - It accepts exactly the graphs with no cycle in which every edge source other than the root has an incoming edge (`CheckDag.CheckDAG`).
  - Graphs built only through `AddTaskNode` and `AutoConnectToEnd` can still be rejected: `AddTaskNode(a, b)` and `AddTaskNode(b, a)` build a cycle, and `CheckDAG` rejects it.

## Model

| member | source | states |
|---|---|---|
| Task.NewTask | task.go:57-64 | The built task keeps its body. Its name and its two hooks are those set by the last option that sets each one, with "" and nil when none does. |
| Task.ApplyOptionsLastWins | task.go:24-40 | Applying options in order means that, for each field, the last option setting it wins and an unset field keeps its value. |
| Task.NewTaskNode | task.go:57-69 | Allocates one fresh node whose task is built from the options. The node has no edges and a zero counter, and `Name` reports the last given name. All existing nodes and edges stay, and heap validity is kept. |
| Task.NewNilTaskNode | task.go:76-78 | Allocates one fresh node with no task, no edges and a zero counter. `Name` reports "nil" for it. Everything else stays. |
| Task.NameOfNewNodes | task.go:80-86 | `Name` of a node built with options reports the last name option, or "" when none is given. `Name` of a task-less node reports "nil". |
| Task.Connect | task.go:89-97 | Creates exactly one new edge `from -> to`. It appends that edge to `from`'s children and to `to`'s dependencies. Every other list, task and counter is unchanged. |
| Task.ConnectPreservesValid | task.go:89-97 | After `connect`, every node's child and dependency lists are still exactly its outgoing and incoming edges, in creation order. |
| Task.DependencySatisfied | task.go:99-102 | A node with 0 or 1 dependency is ready and keeps its counter. A join node's counter goes up by one, and the node is ready exactly when the counter equals its number of dependencies. |
| Task.ArrivalsCount | task.go:99-102 | Over k successive calls, call i answers true on a join node exactly when the starting counter plus i + 1 equals the number of dependencies. On a node with at most one dependency every call answers true. |
| Task.JoinReadyOnNthCallOnly | task.go:99-102 | From a zero counter, a node with N ≥ 2 dependencies answers true on the N-th call only, never before or after. |
| Workflow.NewWorkFlow | workflow.go:21-32 | A fresh workflow holds exactly two nodes and no edges. The root has no task. `End` has the done-marking task named "end". The workflow is not done and has no error. |
| Workflow.Done | workflow.go:44-51 | Afterwards the workflow is done. A second call changes nothing, and nothing but the flag ever changes. |
| Workflow.DoneIdempotent | workflow.go:44-51 | Calling `done` twice is the same as calling it once. |
| Workflow.ErrDone | workflow.go:53-56 | Records the given error even when already done, and leaves the workflow done. Nothing else changes. |
| Workflow.ErrDoneLastWins | workflow.go:53-56 | Two `errDone` calls leave the second error recorded: the last error wins, not the first. |
| Workflow.ConnectToEnd | workflow.go:69-71 | Registers exactly one new edge `n -> End`. Anchors, completion state, tasks and counters stay. |
| Workflow.ConnectDepsAppends | workflow.go:64-66 | The dependency loop registers exactly the edges `deps[i] -> node`, in argument order. |
| Workflow.ConnectDepsFrames | workflow.go:64-66 | The dependency loop leaves every node that is neither the new node nor a dependency unchanged. |
| Workflow.AddTaskNode | workflow.go:59-67 | With no dependencies, registers exactly one edge `root -> node`. Otherwise it registers one edge per dependency, in argument order, and no root edge. Only the endpoints of the new edges change, and only in their edge lists. |
| Workflow.CollectChildlessTargets | workflow.go:74-80 | The first loop yields exactly the set of edge targets that have no children. |
| Workflow.ConnectEachToEnd | workflow.go:82-84 | The second loop connects each node of the set to `End` exactly once. Other nodes keep their children, and only `End` gains dependencies. |
| Workflow.AutoConnectToEnd | workflow.go:73-85 | Registers exactly one new edge `n -> End` for each distinct childless edge target `n`, in some order, and nothing else. |
| Workflow.AutoConnectLinksEachLeaf | workflow.go:73-85 | Every childless edge target gets its edge to `End` among the new edges. |
| Workflow.AutoConnectLeavesNoOtherLeaf | workflow.go:76-84 | If `End` was no edge's target, then afterwards every edge target other than `End` has a child. |
| Workflow.AutoConnectKeepsEndChildless | workflow.go:76-84 | With `End` edge-free beforehand, `End` is not among the nodes connected and stays childless. |
| Workflow.AutoConnectMakesEndALeaf | workflow.go:76-84 | With `End` edge-free beforehand, a call that connects anything makes `End` a childless edge target. |
| Workflow.AutoConnectTwiceLinksEndToItself | workflow.go:76-84 | Calling it twice on such a graph registers an `End -> End` edge, so the operation is not idempotent. |
| CheckDag.AllMarked | workflow.go:105-109 | The inner loop's verdict is true exactly when every incoming edge of the child has been visited. |
| CheckDag.VisitChildren | workflow.go:102-111 | After the children loop of a popped node, the visited edges are exactly those leaving walked nodes. The walked and queued nodes are exactly the root and the nodes all of whose incoming edges are visited, without repeats, root first, in topological order. |
| CheckDag.CheckDAG | workflow.go:92-125 | The walk terminates. Its order starts at the root, has no repeats, is topological, and holds exactly the root and the nodes all of whose incoming edges leave walked nodes. The visitor sees that order only when it is given. The answer is true iff every edge was visited, iff the graph has no cycle and every edge source other than the root is fed. |
| CheckDag.WalkSound | workflow.go:120-124 | A closed topological walk that reaches every edge source ranks the graph, so the graph has no cycle, and every edge source other than the root has an incoming edge. |
| CheckDag.SourceReached | workflow.go:96-112 | On a ranked graph where every edge source but the root is fed, a walk closed under incoming edges reaches every edge source. The proof is by induction on rank. |
| CheckDag.WalkComplete | workflow.go:120-124 | On such a graph every registered edge is visited. |
| CheckDag.GoChildren | workflow.go:102-111 | The children loop as written, on any graph: afterwards the marked edges are the earlier ones plus every child edge, the queue only grows at its end, by at most one node per child edge, and the walk order is untouched. |
| CheckDag.GoStep | workflow.go:96-111 | One round of the outer loop as written pops the head of the queue and appends it to the walk order. |
| CheckDag.GoSteps | workflow.go:96-112 | Up to `k` rounds of the outer loop: the walk order grows by one node per round, and by exactly `k` when the queue is still not empty. |
| CheckDag.GoWalkLoopsOnRootCycle | workflow.go:92-112 | On the graph root→A, A→root the walk as written never ends: after any number of rounds the queue is not empty and the walk order has one node per round. |
| CheckDag.FedRootBreaksDag | workflow.go:92-125 | A graph with an edge into the root either has a cycle or has an edge source other than the root with no incoming edge. |
| CheckDag.CheckDAGAnyRoot | workflow.go:92-125 | With no condition on the root, the answer is true iff the graph has no cycle and every edge source other than the root is fed. The order starts at the root, and the visitor sees it only when it is given. |
| ExecuteEnv.Start | execute_env.go:13-15 | A run starts with exactly one pending visit, of the root, and an empty log. |
| ExecuteEnv.FanOut | execute_env.go:42-49 | A successful visit contributes one pending visit per child edge, the inline first child and the spawned rest alike. Each node is pending as many times as there are child edges leading to it. |
| ExecuteEnv.Tick | execute_env.go:18 | The readiness check changes only the visited node's counter, as `dependencySatisfied` does, and leaves the graph and the completion state alone. |
| ExecuteEnv.TaskEvents | execute_env.go:29-41 | One task run logs exactly one `Execute`. It starts with the pre-process hook exactly when that hook is set, and ends with the post-process hook exactly when the task succeeded and that hook is set. A failed task's last event is its `Execute`. |
| ExecuteEnv.TaskEventsInOrder | execute_env.go:29-41 | Within one task run, the pre-process hook comes immediately before `Execute` and the post-process hook immediately after it. |
| ExecuteEnv.RunTask | execute_env.go:29-49 | A failing user task records its error, completes the workflow, skips its post-process hook and visits no child. Otherwise every child edge is visited, and the workflow becomes done exactly when the task is `End`'s. |
| ExecuteEnv.Proceed | execute_env.go:19-49 | A ready visit does one of four things. If the workflow is already done, nothing happens. On a context error, it records that error and runs nothing. On a task error, it records that error and visits no child. On success, it visits one child per child edge. |
| ExecuteEnv.Visit | execute_env.go:17-51 | A visit does four things. Only the visited node's counter moves. The visit runs the node's task once when it passes the checks and has a task, and never otherwise. An unready visit runs nothing and schedules nothing. The rest is as in `Proceed`. |
| ExecuteEnv.VisitCount | execute_env.go:17-51 | A visit adds one run of its own node's task when it runs it, and no run of any other task. |
| ExecuteEnv.Run | execute_env.go:43-48 | Any schedule of pending visits keeps the graph and only extends the log. |
| ExecuteEnv.JoinRunsAtMostOnce | execute_env.go:18-41 | Under every schedule and every outcome, a node with two or more dependencies runs its task at most once. |
| ExecuteEnv.JoinReadyAtMostOnce | execute_env.go:18-21 | Under every schedule and every outcome, a node with two or more dependencies passes its readiness check at most once, and never once its counter has reached its number of dependencies. This holds for a task-less join too, so such a node fans out at most once. |
| ExecuteEnv.JoinReadyOnceFromStart | execute_env.go:13-21 | From the start of a run, a join node passes its readiness check at most once under every schedule. |
| ExecuteEnv.RunKeepsJoinInv | execute_env.go:18-41 | Every schedule keeps this true for a join node: its task has run at most once, and only after its counter reached its number of dependencies. |
| ExecuteEnv.DoneIsFinal | execute_env.go:19-21 | Once the workflow is done, no further task or hook runs, and the recorded error no longer changes. |
| ExecuteEnv.CancelledRunsNothing | execute_env.go:23-27 | With the context cancelled at every visit, no task runs and no pending visit is added. |
| ExecuteEnv.CancelledAtStart | execute_env.go:13-27 | For a root with at most one incoming edge, starting with a cancelled context makes the root's visit record the context's error and complete the workflow, and nothing ever runs. |
| ExecuteEnv.CancelledJoinRootHangs | execute_env.go:17-27 | For a root with two or more incoming edges whose counter is not about to reach their number, a first visit with a cancelled context fails the readiness check before the context is read. It records no error, does not complete the workflow, runs nothing and leaves nothing pending. |
| ExecuteEnv.HooksRunInOrder | execute_env.go:29-41 | Under every schedule, hooks run only when set. A pre-process hook runs immediately before its task, and a task that has one never runs without it. A post-process hook runs immediately after its task. |
| Scenario.ChildlessIffNoOutgoing | task.go:89-97 | In a well-formed workflow a node's child list is empty exactly when no edge leaves it. |
| Scenario.UnfedIffNoIncoming | task.go:89-97 | In a well-formed workflow a node's dependency list is empty exactly when no edge enters it. |
| Scenario.NewClosureNode | task.go:71-73 | A closure node created with a single `WithTaskName` option is one fresh node. Its task is the closure under that name with no hooks, and it has no edges and a zero counter. All earlier nodes and edges stay. |
| Scenario.AddRootTasks | workflow_test.go:29-30 | Adding `add1` and `add2` without dependencies registers exactly the edges `root -> add1` and `root -> add2`. |
| Scenario.AddJoinTask | workflow_test.go:31 | Adding `multiply` with dependencies `add1` and `add2` registers exactly `add1 -> multiply` and `add2 -> multiply`. |
| Scenario.BuildWf | workflow_test.go:10-35 | `buildWf` yields five nodes and exactly the edges root→add1, root→add2, add1→multiply, add2→multiply and multiply→End. |
| Scenario.BuiltWfIsADag | workflow_test.go:10-35 | That graph has no cycle, and every edge source but the root is fed. |
| Scenario.CheckBuiltWf | workflow_test.go:37-43 | `CheckDAG` accepts the graph and hands every one of its five nodes to the visitor exactly once. |
| BuiltRun.BuiltWfRunsToEnd | execute_env_test.go:151-158 | One schedule of that graph with no error runs each task (add1, add2, multiply, End) exactly once and the task-less root never. Nothing is left pending, and the workflow ends done with no error. |
| BuiltRun.EveryFineRunOfBuiltWf | execute_env_test.go:151-158 | Under every schedule with no context or task error, the graph keeps no error, never runs the root, and runs each of add1, add2, multiply and End at most once. The workflow is done exactly when nothing is pending, and then every one of those four tasks has run exactly once. |

## Left out

- Goroutine interleaving inside a visit is not modelled: each visit is one atomic step. The unsynchronised reads and writes of `alreadyDone` and `err` are data races with no faithful sequential meaning.
- `doneChan`, `WaitDone` and the `sync.Once` inside `done` are left out. The one-shot completion is the boolean `alreadyDone`, since a closed channel and a fired `Once` coincide with it.
- `context.Context` deadlines and timers are left out. What `ctx.Err()` returns at each visit is an input, so cancellation at any point is covered.
- Task bodies and hook bodies are arbitrary closures. Each run is an event in a log, and what a user task returns is an input.
- The `ExecuteEnv` interface is left out. Its signature differs from the one method that implements it.
- The `startNodes` and `env` fields are left out, because no operation uses them.
- `Error()` is left out. It only returns the `err` field, which the model exposes directly.
- Task.DependencySatisfied: `DepCompleted` is a 32-bit counter in the source and an unbounded integer here, so wrap-around after 2^31 increments is not modelled.
- Liveness is not modelled: there is no proof that every run reaches `End`, and no fairness assumption. `BuiltRun.EveryFineRunOfBuiltWf` covers every schedule of the test graph, but only says what holds once nothing is pending. `BuiltRun.BuiltWfRunsToEnd` shows one complete run.
- BuiltRun.BuiltWfRunsToEnd: proved for one schedule only. The every-schedule statement is `BuiltRun.EveryFineRunOfBuiltWf`, which cannot promise that a given schedule empties the pending set.
- The benchmark's loop and the tests' non-atomic arithmetic on the shared counter are left out.
- The order of pending visits does not distinguish the inline first child from spawned children. Both are pending visits, and the schedule may take them in any order, which covers what the goroutines can do.
- CheckDag.CheckDAG: requires the root to have no incoming edge, so graphs where some edge enters the root are not covered. Such an edge can be made with `AddTaskNode`, since the root is reachable through the exported `Dependency` and `From` fields. On such a graph the Go walk answers false when it does not reach every edge into the root. When it reaches them all, it never returns: the root is enqueued again each time, and once every edge is visited a node is enqueued once per incoming edge, so the queue can grow without bound. `CheckDag.GoWalkLoopsOnRootCycle` shows this for root→A, A→root, and `CheckDag.CheckDAGAnyRoot` gives the intended answer on every graph (see Findings).
- ExecuteEnv.CancelledAtStart: requires the root to have at most one incoming edge. A root with two or more is a join: its first visit fails the readiness check before the context is read, so a cancelled start records no error and never completes the workflow, and a caller waiting for completion blocks forever (`ExecuteEnv.CancelledJoinRootHangs`).
- Nodes shared between workflows and edge lists edited by hand are not modelled. Every node belongs to exactly one workflow, and its `Children` and `Dependency` lists hold exactly the edges that workflow registered. In Go, `wf1.AddTaskNode(a)` followed by `wf2.AddTaskNode(a)` gives `a` dependencies from two roots, and such a graph is outside the model.
- Workflow.AutoConnectToEnd: its result fixes the set of new edges but not their order, which follows Go map iteration and is unspecified.

## Findings

| source | as written | input that shows it | evidently intended | confidence | as-written member | corrected member |
|---|---|---|---|---|---|---|
| workflow.go:92-125 | `CheckDAG` re-enqueues the root once every edge into it is visited, so on a cycle through the root the walk never stops and no answer is returned | root→A and A→root, both made with `AddTaskNode` | answer false, since the graph is not a DAG | medium, not executed | CheckDag.GoWalkLoopsOnRootCycle | CheckDag.CheckDAGAnyRoot |

=== FILE: built_run.dfy ===
/**
 * Running the graph of `buildWf` with no error and no cancellation: after
 * root, add1, add2, two visits of multiply (the first one blocked by its
 * join counter) and End, every task has run exactly once, nothing is
 * pending, and the workflow is done without an error.
 */
module BuiltRun {
  import opened Wrappers
  import opened Task
  import opened Workflow
  import opened CheckDag
  import opened ExecuteEnv
  import opened Scenario

  function BuiltEdges(): seq<Edge> {
    [Edge(0, 2), Edge(0, 3), Edge(2, 4), Edge(3, 4), Edge(4, 1)]
  }

  /** Two increasing sequences with the same elements and length are equal. */
  lemma {:induction false} SortedUnique(a: seq<nat>, b: seq<nat>)
    requires Increasing(a) && Increasing(b) && |a| == |b|
    requires forall x :: x in a <==> x in b
    ensures a == b
    decreases |a|
  {
    if |a| > 0 {
      assert a[0] in b && b[0] in a;
      var k :| 0 <= k < |b| && b[k] == a[0];
      var l :| 0 <= l < |a| && a[l] == b[0];
      assert a[0] <= a[l] && b[0] <= b[k];
      forall x
        ensures x in a[1..] <==> x in b[1..]
      {
        if x in a[1..] {
          var i :| 1 <= i < |a| && a[i] == x;
          assert x in b && x != b[0];
        }
        if x in b[1..] {
          var i :| 1 <= i < |b| && b[i] == x;
          assert x in a && x != a[0];
        }
      }
      SortedUnique(a[1..], b[1..]);
    }
  }

  lemma IncreasingDistinct(s: seq<nat>)
    requires Increasing(s)
    ensures Distinct(s)
  {
  }

  /** An edge list kept by the heap is determined by which edges belong in it. */
  lemma SameEdgeList(cs: seq<EdgeId>, t: seq<EdgeId>)
    requires Increasing(cs) && Increasing(t)
    requires forall x :: x in cs <==> x in t
    ensures cs == t
  {
    IncreasingDistinct(cs);
    IncreasingDistinct(t);
    DistinctSize(cs);
    DistinctSize(t);
    assert Elems(cs) == Elems(t);
    SortedUnique(cs, t);
  }

  /** The indices, from `i` on, of the edges in `es` leaving `n`, in order. */
  function EdgesFrom(es: seq<Edge>, n: NodeId, i: nat): (r: seq<EdgeId>)
    requires i <= |es|
    ensures forall x :: x in r <==> i <= x < |es| && es[x].from == n
    ensures Increasing(r)
    decreases |es| - i
  {
    if i == |es| then []
    else
      var rest := EdgesFrom(es, n, i + 1);
      if es[i].from == n then
        assert forall k :: 0 <= k < |rest| ==> rest[k] in rest;
        [i] + rest
      else rest
  }

  /** The indices, from `i` on, of the edges in `es` entering `n`, in order. */
  function EdgesInto(es: seq<Edge>, n: NodeId, i: nat): (r: seq<EdgeId>)
    requires i <= |es|
    ensures forall x :: x in r <==> i <= x < |es| && es[x].to == n
    ensures Increasing(r)
    decreases |es| - i
  {
    if i == |es| then []
    else
      var rest := EdgesInto(es, n, i + 1);
      if es[i].to == n then
        assert forall k :: 0 <= k < |rest| ==> rest[k] in rest;
        [i] + rest
      else rest
  }

  /** In a valid heap a node's children are the edges leaving it, in creation order. */
  lemma ChildrenAre(h: Heap, n: NodeId)
    requires Valid(h) && n < |h.nodes|
    ensures h.nodes[n].children == EdgesFrom(h.edges, n, 0)
  {
    assert IsChildList(h, n, h.nodes[n].children);
    SameEdgeList(h.nodes[n].children, EdgesFrom(h.edges, n, 0));
  }

  /** In a valid heap a node's dependencies are the edges entering it, in creation order. */
  lemma DependenciesAre(h: Heap, n: NodeId)
    requires Valid(h) && n < |h.nodes|
    ensures h.nodes[n].dependency == EdgesInto(h.edges, n, 0)
  {
    assert IsDependencyList(h, n, h.nodes[n].dependency);
    SameEdgeList(h.nodes[n].dependency, EdgesInto(h.edges, n, 0));
  }

  /** The children lists of the built graph. */
  lemma BuiltChildren(wf: WorkFlow)
    requires FiveNodes(wf) && wf.heap.edges == BuiltEdges()
    ensures wf.heap.nodes[0].children == [0, 1] && wf.heap.nodes[1].children == []
    ensures wf.heap.nodes[2].children == [2] && wf.heap.nodes[3].children == [3]
    ensures wf.heap.nodes[4].children == [4]
  {
    ChildrenAre(wf.heap, 0);
    ChildrenAre(wf.heap, 1);
    ChildrenAre(wf.heap, 2);
    ChildrenAre(wf.heap, 3);
    ChildrenAre(wf.heap, 4);
    assert EdgesFrom(BuiltEdges(), 0, 0) == [0, 1];
    assert EdgesFrom(BuiltEdges(), 1, 0) == [];
    assert EdgesFrom(BuiltEdges(), 2, 0) == [2];
    assert EdgesFrom(BuiltEdges(), 3, 0) == [3];
    assert EdgesFrom(BuiltEdges(), 4, 0) == [4];
  }

  /** `sched` takes the visits of `Schedule` from the `k`-th on. */
  ghost predicate ScheduledFrom(sched: seq<Choice>, k: nat) {
    |sched| == 6 && forall i :: k <= i < 6 ==> sched[i] == Schedule()[i]
  }

  /** The visits each node of the built graph fans out to. */
  function BuiltOut(n: NodeId): multiset<NodeId> {
    if n == 0 then multiset{2, 3}
    else if n == 2 || n == 3 then multiset{4}
    else if n == 4 then multiset{1}
    else multiset{}
  }

  /** The one-visit-per-child-edge fan-out of each node of the built graph. */
  lemma BuiltFanOut(wf: WorkFlow)
    requires FiveNodes(wf) && wf.heap.edges == BuiltEdges()
    ensures FanOut(wf, 0) == multiset{2, 3}
    ensures FanOut(wf, 2) == multiset{4} && FanOut(wf, 3) == multiset{4}
    ensures FanOut(wf, 4) == multiset{1} && FanOut(wf, 1) == multiset{}
    ensures forall n :: 0 <= n < 5 ==> FanOut(wf, n) == BuiltOut(n)
  {
    BuiltChildren(wf);
    assert Targets(wf.heap, [0, 1]) == [2, 3];
    assert Targets(wf.heap, [2]) == [4];
    assert Targets(wf.heap, [3]) == [4];
    assert Targets(wf.heap, [4]) == [1];
  }

  /** Only multiply joins: the others have at most one dependency edge. */
  lemma BuiltDependencies(wf: WorkFlow)
    requires FiveNodes(wf) && wf.heap.edges == BuiltEdges()
    ensures wf.heap.nodes[0].dependency == [] && wf.heap.nodes[1].dependency == [4]
    ensures wf.heap.nodes[2].dependency == [0] && wf.heap.nodes[3].dependency == [1]
    ensures wf.heap.nodes[4].dependency == [2, 3]
  {
    DependenciesAre(wf.heap, 0);
    DependenciesAre(wf.heap, 1);
    DependenciesAre(wf.heap, 2);
    DependenciesAre(wf.heap, 3);
    DependenciesAre(wf.heap, 4);
    assert EdgesInto(BuiltEdges(), 0, 0) == [];
    assert EdgesInto(BuiltEdges(), 1, 0) == [4];
    assert EdgesInto(BuiltEdges(), 2, 0) == [0];
    assert EdgesInto(BuiltEdges(), 3, 0) == [1];
    assert EdgesInto(BuiltEdges(), 4, 0) == [2, 3];
  }

  /** Neither the context nor any task reports an error. */
  function Fine(): Oracle {
    Oracle(None, None)
  }

  /** Where a run of the built graph stands: pending visits, multiply's counter, the tasks run once. */
  ghost predicate At(wf: WorkFlow, s: Exec, pending: multiset<NodeId>, joined: int, ran: set<NodeId>, done: bool)
    requires FiveNodes(wf)
  {
    && ExecValid(s) && SameGraph(wf, s.wf) && s.pending == pending
    && s.wf.alreadyDone == done && s.wf.err == None
    && s.wf.heap.nodes[4].depCompleted == joined
    && (forall m :: 0 <= m < 5 ==> Count(s.log, m) == if m in ran then 1 else 0)
  }

  /** A visit adds one run of its own task when the task runs, and no other. */
  lemma VisitCounts(s: Exec, n: NodeId)
    requires ExecValid(s) && n in s.pending
    ensures forall m :: Count(Visit(s, n, Fine()).log, m) ==
                          Count(s.log, m) + if m == n && Runs(s, n, Fine()) then 1 else 0
  {
    forall m
      ensures Count(Visit(s, n, Fine()).log, m) == Count(s.log, m) + if m == n && Runs(s, n, Fine()) then 1 else 0
    {
      VisitCount(s, n, Fine(), m);
    }
  }

  /** Adding one run of a task that had not run yet to a once-each log. */
  lemma CountsAfter(before: seq<Event>, after: seq<Event>, n: NodeId, runs: bool, ran: set<NodeId>)
    requires n !in ran
    requires forall m :: 0 <= m < 5 ==> Count(before, m) == if m in ran then 1 else 0
    requires forall m :: Count(after, m) == Count(before, m) + if m == n && runs then 1 else 0
    ensures forall m :: 0 <= m < 5 ==> Count(after, m) == if m in (if runs then ran + {n} else ran) then 1 else 0
  {
  }

  lemma CountsAfterVisit(s: Exec, n: NodeId, ran: set<NodeId>)
    requires ExecValid(s) && n in s.pending && n !in ran
    requires forall m :: 0 <= m < 5 ==> Count(s.log, m) == if m in ran then 1 else 0
    ensures forall m :: 0 <= m < 5 ==>
              Count(Visit(s, n, Fine()).log, m) ==
                if m in (if Runs(s, n, Fine()) then ran + {n} else ran) then 1 else 0
  {
    VisitCounts(s, n);
    CountsAfter(s.log, Visit(s, n, Fine()).log, n, Runs(s, n, Fine()), ran);
  }

  /** Which error-free visits of the built graph run their task. */
  lemma BuiltRuns(wf: WorkFlow, s: Exec, n: NodeId, joined: int)
    requires FiveNodes(wf) && wf.heap.edges == BuiltEdges()
    requires ExecValid(s) && SameGraph(wf, s.wf) && !s.wf.alreadyDone
    requires s.wf.heap.nodes[4].depCompleted == joined
    requires n < 5
    ensures Ready(s, n) == !(n == 4 && joined + 1 != 2)
    ensures Proceeds(s, n, Fine()) == Ready(s, n) && !Fails(s, n, Fine())
    ensures Runs(s, n, Fine()) == (n != 0 && !(n == 4 && joined + 1 != 2))
    ensures Runs(s, n, Fine()) ==> (s.wf.heap.nodes[n].task.value.body.EndBody? <==> n == 1)
    ensures |s.wf.heap.nodes[4].dependency| == 2
  {
    BuiltDependencies(wf);
    assert s.wf.heap.nodes[n].dependency == wf.heap.nodes[n].dependency;
    assert s.wf.heap.nodes[n].task == wf.heap.nodes[n].task;
  }

  /** What one error-free visit of the built graph does to the workflow and the pending visits. */
  lemma VisitState(wf: WorkFlow, s: Exec, n: NodeId, pending: multiset<NodeId>, joined: int, ran: set<NodeId>)
    requires FiveNodes(wf) && wf.heap.edges == BuiltEdges()
    requires At(wf, s, pending, joined, ran, false)
    requires n < 5 && n in pending && n !in ran
    ensures ExecValid(Visit(s, n, Fine())) && SameGraph(wf, Visit(s, n, Fine()).wf)
    ensures Visit(s, n, Fine()).wf.err == None
    ensures Visit(s, n, Fine()).wf.heap.nodes[4].depCompleted == if n == 4 then joined + 1 else joined
    ensures n == 4 && joined + 1 != 2 ==>
              Visit(s, n, Fine()).pending == pending - multiset{n} && !Visit(s, n, Fine()).wf.alreadyDone
    ensures !(n == 4 && joined + 1 != 2) ==>
              && Visit(s, n, Fine()).pending == pending - multiset{n} + FanOut(wf, n)
              && Visit(s, n, Fine()).wf.alreadyDone == (n == 1)
  {
    var r := Visit(s, n, Fine());
    BuiltRuns(wf, s, n, joined);
    FanOutSameGraph(wf, s.wf, n);
    SameGraphTransitive(wf, s.wf, r.wf);
  }

  /** The blocked first visit of `multiply` changes only its counter and the pending visits. */
  lemma VisitBlocked(wf: WorkFlow, s: Exec, pending: multiset<NodeId>, joined: int, ran: set<NodeId>)
    requires FiveNodes(wf) && wf.heap.edges == BuiltEdges()
    requires At(wf, s, pending, joined, ran, false)
    requires 4 in pending && 4 !in ran && joined + 1 != 2
    ensures At(wf, Visit(s, 4, Fine()), pending - multiset{4}, joined + 1, ran, false)
  {
    BuiltRuns(wf, s, 4, joined);
    VisitState(wf, s, 4, pending, joined, ran);
    CountsAfterVisit(s, 4, ran);
  }

  /** The root has no task: its visit only fans out. */
  lemma VisitRoot(wf: WorkFlow, s: Exec, pending: multiset<NodeId>, joined: int, ran: set<NodeId>)
    requires FiveNodes(wf) && wf.heap.edges == BuiltEdges()
    requires At(wf, s, pending, joined, ran, false)
    requires 0 in pending && 0 !in ran
    ensures At(wf, Visit(s, 0, Fine()), pending - multiset{0} + FanOut(wf, 0), joined, ran, false)
  {
    BuiltRuns(wf, s, 0, joined);
    VisitState(wf, s, 0, pending, joined, ran);
    CountsAfterVisit(s, 0, ran);
  }

  /** A visit of a task node that proceeds runs the task once and fans out to the node's children. */
  lemma VisitTask(wf: WorkFlow, s: Exec, n: NodeId, pending: multiset<NodeId>, joined: int, ran: set<NodeId>)
    requires FiveNodes(wf) && wf.heap.edges == BuiltEdges()
    requires At(wf, s, pending, joined, ran, false)
    requires 0 < n < 5 && n in pending && n !in ran && !(n == 4 && joined + 1 != 2)
    ensures At(wf, Visit(s, n, Fine()), pending - multiset{n} + FanOut(wf, n),
               if n == 4 then joined + 1 else joined, ran + {n}, n == 1)
  {
    BuiltRuns(wf, s, n, joined);
    VisitState(wf, s, n, pending, joined, ran);
    CountsAfterVisit(s, n, ran);
  }

  function Schedule(): seq<Choice> {
    [Choice(0, Fine()), Choice(2, Fine()), Choice(3, Fine()),
     Choice(4, Fine()), Choice(4, Fine()), Choice(1, Fine())]
  }

  /**
   * The `k`-th visit of a schedule, then the rest of it: the run reaches
   * `pending'`, `joined'`, `ran'` and `done'` as `VisitBuilt` says.
   */
  lemma RunOn(wf: WorkFlow, s: Exec, sched: seq<Choice>, k: nat, n: NodeId,
              pending: multiset<NodeId>, joined: int, ran: set<NodeId>,
              pending': multiset<NodeId>, joined': int, ran': set<NodeId>, done': bool)
    returns (r: Exec)
    requires FiveNodes(wf) && wf.heap.edges == BuiltEdges()
    requires At(wf, s, pending, joined, ran, false)
    requires k < |sched| && sched[k] == Choice(n, Fine())
    requires n < 5 && n in pending && n !in ran
    requires n == 4 && joined + 1 != 2 ==>
               pending' == pending - multiset{n} && joined' == joined + 1 && ran' == ran && !done'
    requires !(n == 4 && joined + 1 != 2) ==>
               && pending' == pending - multiset{n} + BuiltOut(n)
               && joined' == (if n == 4 then joined + 1 else joined)
               && ran' == (if n == 0 then ran else ran + {n})
               && done' == (n == 1)
    ensures ExecValid(r) && Run(s, sched[k..]) == Run(r, sched[k + 1..])
    ensures k == 0 ==> Run(s, sched) == Run(r, sched[1..])
    ensures At(wf, r, pending', joined', ran', done')
  {
    VisitAt(wf, s, n, pending, joined, ran, pending', joined', ran', done');
    RunVisits(s, sched, k, n);
    r := Visit(s, n, Fine());
  }

  /** The visit of `n`, in whichever of its three cases. */
  lemma VisitAt(wf: WorkFlow, s: Exec, n: NodeId,
                pending: multiset<NodeId>, joined: int, ran: set<NodeId>,
                pending': multiset<NodeId>, joined': int, ran': set<NodeId>, done': bool)
    requires FiveNodes(wf) && wf.heap.edges == BuiltEdges()
    requires At(wf, s, pending, joined, ran, false)
    requires n < 5 && n in pending && n !in ran
    requires n == 4 && joined + 1 != 2 ==>
               pending' == pending - multiset{n} && joined' == joined + 1 && ran' == ran && !done'
    requires !(n == 4 && joined + 1 != 2) ==>
               && pending' == pending - multiset{n} + BuiltOut(n)
               && joined' == (if n == 4 then joined + 1 else joined)
               && ran' == (if n == 0 then ran else ran + {n})
               && done' == (n == 1)
    ensures At(wf, Visit(s, n, Fine()), pending', joined', ran', done')
  {
    BuiltFanOut(wf);
    if n == 4 && joined + 1 != 2 {
      VisitBlocked(wf, s, pending, joined, ran);
    } else if n == 0 {
      VisitRoot(wf, s, pending, joined, ran);
    } else {
      VisitTask(wf, s, n, pending, joined, ran);
    }
  }

  /** A schedule whose `k`-th choice names a pending visit runs that visit next. */
  lemma RunVisits(s: Exec, sched: seq<Choice>, k: nat, n: NodeId)
    requires ExecValid(s) && n in s.pending
    requires k < |sched| && sched[k] == Choice(n, Fine())
    ensures Run(s, sched[k..]) == Run(Visit(s, n, Fine()), sched[k + 1..])
    ensures k == 0 ==> Run(s, sched) == Run(Visit(s, n, Fine()), sched[1..])
  {
    StepVisits(s, sched[k]);
    RunFrom(s, sched, k);
    WholeSuffix(sched);
  }

  lemma StartAt(wf: WorkFlow)
    requires FiveNodes(wf)
    ensures At(wf, Start(wf), multiset{0}, 0, {}, false)
  {
  }

  lemma WholeSuffix(sched: seq<Choice>)
    ensures sched[0..] == sched
  {
  }

  lemma PendingRoot()
    ensures multiset{0} - multiset{0} + BuiltOut(0) == multiset{2, 3}
  {
  }

  /** The root has no task: its visit only fans out to `add1` and `add2`. */
  lemma RootStep(wf: WorkFlow, sched: seq<Choice>, s0: Exec) returns (s1: Exec)
    requires FiveNodes(wf) && wf.heap.edges == BuiltEdges() && ScheduledFrom(sched, 0)
    requires At(wf, s0, multiset{0}, 0, {}, false)
    ensures ExecValid(s1) && Run(s0, sched) == Run(s1, sched[1..])
    ensures At(wf, s1, multiset{2, 3}, 0, {}, false)
  {
    PendingRoot();
    s1 := RunOn(wf, s0, sched, 0, 0, multiset{0}, 0, {}, multiset{2, 3}, 0, {}, false);
  }

  lemma PendingAdd1()
    ensures multiset{2, 3} - multiset{2} + BuiltOut(2) == multiset{3, 4}
  {
  }

  /** `add1` runs and fans out to `multiply`. */
  lemma Add1Step(wf: WorkFlow, sched: seq<Choice>, s1: Exec) returns (s2: Exec)
    requires FiveNodes(wf) && wf.heap.edges == BuiltEdges() && ScheduledFrom(sched, 1)
    requires At(wf, s1, multiset{2, 3}, 0, {}, false)
    ensures ExecValid(s2) && Run(s1, sched[1..]) == Run(s2, sched[2..])
    ensures At(wf, s2, multiset{3, 4}, 0, {2}, false)
  {
    PendingAdd1();
    s2 := RunOn(wf, s1, sched, 1, 2, multiset{2, 3}, 0, {}, multiset{3, 4}, 0, {2}, false);
  }

  lemma PendingAdd2()
    ensures multiset{3, 4} - multiset{3} + BuiltOut(3) == multiset{4, 4}
  {
  }

  /** `add2` runs and fans out to `multiply` again. */
  lemma Add2Step(wf: WorkFlow, sched: seq<Choice>, s2: Exec) returns (s3: Exec)
    requires FiveNodes(wf) && wf.heap.edges == BuiltEdges() && ScheduledFrom(sched, 2)
    requires At(wf, s2, multiset{3, 4}, 0, {2}, false)
    ensures ExecValid(s3) && Run(s2, sched[2..]) == Run(s3, sched[3..])
    ensures At(wf, s3, multiset{4, 4}, 0, {2, 3}, false)
  {
    PendingAdd2();
    s3 := RunOn(wf, s2, sched, 2, 3, multiset{3, 4}, 0, {2}, multiset{4, 4}, 0, {2, 3}, false);
  }

  lemma PendingFirstJoin()
    ensures multiset{4, 4} - multiset{4} == multiset{4}
  {
  }

  /** The first arrival at `multiply` only counts. */
  lemma FirstJoinStep(wf: WorkFlow, sched: seq<Choice>, s3: Exec) returns (s4: Exec)
    requires FiveNodes(wf) && wf.heap.edges == BuiltEdges() && ScheduledFrom(sched, 3)
    requires At(wf, s3, multiset{4, 4}, 0, {2, 3}, false)
    ensures ExecValid(s4) && Run(s3, sched[3..]) == Run(s4, sched[4..])
    ensures At(wf, s4, multiset{4}, 1, {2, 3}, false)
  {
    PendingFirstJoin();
    s4 := RunOn(wf, s3, sched, 3, 4, multiset{4, 4}, 0, {2, 3}, multiset{4}, 1, {2, 3}, false);
  }

  lemma PendingSecondJoin()
    ensures multiset{4} - multiset{4} + BuiltOut(4) == multiset{1} && {2, 3} + {4} == {2, 3, 4}
  {
  }

  /** The second arrival at `multiply` runs it, and it fans out to `End`. */
  lemma SecondJoinStep(wf: WorkFlow, sched: seq<Choice>, s4: Exec) returns (s5: Exec)
    requires FiveNodes(wf) && wf.heap.edges == BuiltEdges() && ScheduledFrom(sched, 4)
    requires At(wf, s4, multiset{4}, 1, {2, 3}, false)
    ensures ExecValid(s5) && Run(s4, sched[4..]) == Run(s5, sched[5..])
    ensures At(wf, s5, multiset{1}, 2, {2, 3, 4}, false)
  {
    PendingSecondJoin();
    s5 := RunOn(wf, s4, sched, 4, 4, multiset{4}, 1, {2, 3}, multiset{1}, 2, {2, 3, 4}, false);
  }

  lemma PendingEnd()
    ensures multiset{1} - multiset{1} + BuiltOut(1) == multiset{} && {2, 3, 4} + {1} == {1, 2, 3, 4}
  {
  }

  /** `End` runs and marks the workflow done. */
  lemma EndStep(wf: WorkFlow, sched: seq<Choice>, s5: Exec) returns (s6: Exec)
    requires FiveNodes(wf) && wf.heap.edges == BuiltEdges() && ScheduledFrom(sched, 5)
    requires At(wf, s5, multiset{1}, 2, {2, 3, 4}, false)
    ensures ExecValid(s6) && Run(s5, sched[5..]) == Run(s6, sched[6..])
    ensures At(wf, s6, multiset{}, 2, {1, 2, 3, 4}, true)
  {
    PendingEnd();
    s6 := RunOn(wf, s5, sched, 5, 1, multiset{1}, 2, {2, 3, 4}, multiset{}, 2, {1, 2, 3, 4}, true);
  }

  /** From visit 5 of the schedule on, the run finishes the workflow. */
  lemma FinishFromEnd(wf: WorkFlow, sched: seq<Choice>, s5: Exec)
    requires FiveNodes(wf) && wf.heap.edges == BuiltEdges() && ScheduledFrom(sched, 5)
    requires At(wf, s5, multiset{1}, 2, {2, 3, 4}, false)
    ensures At(wf, Run(s5, sched[5..]), multiset{}, 2, {1, 2, 3, 4}, true)
  {
    var s6 := EndStep(wf, sched, s5);
    RunNil(s6, sched[6..]);
  }

  /** From visit 4 of the schedule on, the run finishes the workflow. */
  lemma FinishFromSecondJoin(wf: WorkFlow, sched: seq<Choice>, s4: Exec)
    requires FiveNodes(wf) && wf.heap.edges == BuiltEdges() && ScheduledFrom(sched, 4)
    requires At(wf, s4, multiset{4}, 1, {2, 3}, false)
    ensures At(wf, Run(s4, sched[4..]), multiset{}, 2, {1, 2, 3, 4}, true)
  {
    var s5 := SecondJoinStep(wf, sched, s4);
    FinishFromEnd(wf, sched, s5);
  }

  /** From visit 3 of the schedule on, the run finishes the workflow. */
  lemma FinishFromFirstJoin(wf: WorkFlow, sched: seq<Choice>, s3: Exec)
    requires FiveNodes(wf) && wf.heap.edges == BuiltEdges() && ScheduledFrom(sched, 3)
    requires At(wf, s3, multiset{4, 4}, 0, {2, 3}, false)
    ensures At(wf, Run(s3, sched[3..]), multiset{}, 2, {1, 2, 3, 4}, true)
  {
    var s4 := FirstJoinStep(wf, sched, s3);
    FinishFromSecondJoin(wf, sched, s4);
  }

  /** From visit 2 of the schedule on, the run finishes the workflow. */
  lemma FinishFromAdd2(wf: WorkFlow, sched: seq<Choice>, s2: Exec)
    requires FiveNodes(wf) && wf.heap.edges == BuiltEdges() && ScheduledFrom(sched, 2)
    requires At(wf, s2, multiset{3, 4}, 0, {2}, false)
    ensures At(wf, Run(s2, sched[2..]), multiset{}, 2, {1, 2, 3, 4}, true)
  {
    var s3 := Add2Step(wf, sched, s2);
    FinishFromFirstJoin(wf, sched, s3);
  }

  /** From visit 1 of the schedule on, the run finishes the workflow. */
  lemma FinishFromAdd1(wf: WorkFlow, sched: seq<Choice>, s1: Exec)
    requires FiveNodes(wf) && wf.heap.edges == BuiltEdges() && ScheduledFrom(sched, 1)
    requires At(wf, s1, multiset{2, 3}, 0, {}, false)
    ensures At(wf, Run(s1, sched[1..]), multiset{}, 2, {1, 2, 3, 4}, true)
  {
    var s2 := Add1Step(wf, sched, s1);
    FinishFromAdd2(wf, sched, s2);
  }

  /** From visit 0 of the schedule on, the run finishes the workflow. */
  lemma FinishFromRoot(wf: WorkFlow, sched: seq<Choice>, s0: Exec)
    requires FiveNodes(wf) && wf.heap.edges == BuiltEdges() && ScheduledFrom(sched, 0)
    requires At(wf, s0, multiset{0}, 0, {}, false)
    ensures At(wf, Run(s0, sched), multiset{}, 2, {1, 2, 3, 4}, true)
  {
    var s1 := RootStep(wf, sched, s0);
    FinishFromAdd1(wf, sched, s1);
  }

  /** The whole schedule, from the root's visit. */
  lemma RunBuiltSteps(wf: WorkFlow)
    requires FiveNodes(wf) && wf.heap.edges == BuiltEdges()
    ensures At(wf, Run(Start(wf), Schedule()), multiset{}, 2, {1, 2, 3, 4}, true)
  {
    StartAt(wf);
    FinishFromRoot(wf, Schedule(), Start(wf));
  }

  /** Running `sched[k..]` takes the `k`-th choice first. */
  lemma RunFrom(s: Exec, sched: seq<Choice>, k: nat)
    requires ExecValid(s) && k < |sched|
    ensures Run(s, sched[k..]) == Run(Step(s, sched[k]), sched[k + 1..])
  {
    RunUnfold(s, sched[k..]);
    assert sched[k..][1..] == sched[k + 1..];
  }

  lemma RunNil(s: Exec, sched: seq<Choice>)
    requires ExecValid(s) && |sched| == 0
    ensures Run(s, sched) == s
  {
  }

  lemma StepVisits(s: Exec, c: Choice)
    requires ExecValid(s) && c.node in s.pending
    ensures Step(s, c) == Visit(s, c.node, c.oracle)
  {
  }

  /**
   * The benchmark's run of `buildWf`, with no error: every task runs
   * exactly once, the task-less root runs nothing, nothing is left
   * pending, and `End` has marked the workflow done without an error.
   */
  lemma BuiltWfRunsToEnd(wf: WorkFlow)
    requires FiveNodes(wf) && wf.heap.edges == BuiltEdges()
    ensures Run(Start(wf), Schedule()).wf.alreadyDone
    ensures Run(Start(wf), Schedule()).wf.err == None
    ensures Run(Start(wf), Schedule()).pending == multiset{}
    ensures Count(Run(Start(wf), Schedule()).log, 0) == 0
    ensures forall m :: 1 <= m < 5 ==> Count(Run(Start(wf), Schedule()).log, m) == 1
  {
    RunBuiltSteps(wf);
    Finished(wf, Run(Start(wf), Schedule()));
  }

  lemma Finished(wf: WorkFlow, s: Exec)
    requires FiveNodes(wf) && At(wf, s, multiset{}, 2, {1, 2, 3, 4}, true)
    ensures s.wf.alreadyDone && s.wf.err == None && s.pending == multiset{}
    ensures Count(s.log, 0) == 0 && forall m :: 1 <= m < 5 ==> Count(s.log, m) == 1
  {
  }

  // ---------------------------------------------------------------------
  // Every error-free schedule
  // ---------------------------------------------------------------------

  /** 1 when `m`'s task has run, else 0. */
  function Once(ran: set<NodeId>, m: NodeId): int {
    if m in ran then 1 else 0
  }

  /**
   * The bookkeeping every error-free run of the built graph keeps: each
   * pending visit of a node stands for one run of a task feeding it that
   * has not yet been consumed, multiply's counter plus its pending visits
   * is the number of its feeders that have run, multiply has run exactly
   * when its counter reached 2, and the workflow is done exactly when
   * `End` has run.
   */
  ghost predicate Balanced(p: multiset<NodeId>, joined: int, ran: set<NodeId>, done: bool) {
    && (forall m :: m in p ==> m < 5)
    && ran <= {1, 2, 3, 4}
    && p[0] <= 1
    && p[2] + Once(ran, 2) == 1 - p[0]
    && p[3] + Once(ran, 3) == 1 - p[0]
    && joined + p[4] == Once(ran, 2) + Once(ran, 3)
    && (4 in ran <==> joined == 2)
    && p[1] + Once(ran, 1) == Once(ran, 4)
    && (done <==> 1 in ran)
  }

  /**
   * A pending visit in a balanced state finds the workflow not done and its
   * task not yet run, and the visit keeps the state balanced.
   */
  lemma BalancedStep(p: multiset<NodeId>, joined: int, ran: set<NodeId>, done: bool, n: NodeId)
    requires Balanced(p, joined, ran, done) && n in p
    ensures n < 5 && !done && n !in ran
    ensures n == 4 && joined + 1 != 2 ==> Balanced(p - multiset{n}, joined + 1, ran, false)
    ensures !(n == 4 && joined + 1 != 2) ==>
              Balanced(p - multiset{n} + BuiltOut(n), if n == 4 then joined + 1 else joined,
                       if n == 0 then ran else ran + {n}, n == 1)
  {
  }

  /** Every schedule of error-free choices keeps a run of the built graph balanced. */
  /** Every choice of `sched` sees no context error and no task error. */
  ghost predicate AllFine(sched: seq<Choice>) {
    forall i :: 0 <= i < |sched| ==> sched[i].oracle == Fine()
  }

  lemma AllFineSplit(sched: seq<Choice>)
    requires AllFine(sched) && sched != []
    ensures sched[0].oracle == Fine() && AllFine(sched[1..])
  {
  }

  /** One error-free step, of a pending node or of none, keeps the state balanced. */
  lemma FineStep(wf: WorkFlow, s: Exec, c: Choice, pending: multiset<NodeId>, joined: int, ran: set<NodeId>, done: bool)
    returns (pending': multiset<NodeId>, joined': int, ran': set<NodeId>, done': bool)
    requires FiveNodes(wf) && wf.heap.edges == BuiltEdges()
    requires At(wf, s, pending, joined, ran, done) && Balanced(pending, joined, ran, done)
    requires c.oracle == Fine()
    ensures At(wf, Step(s, c), pending', joined', ran', done')
    ensures Balanced(pending', joined', ran', done')
  {
    var n := c.node;
    if n !in s.pending {
      pending', joined', ran', done' := pending, joined, ran, done;
      return;
    }
    BalancedStep(pending, joined, ran, done, n);
    if n == 4 && joined + 1 != 2 {
      pending', joined', ran', done' := pending - multiset{n}, joined + 1, ran, false;
    } else {
      pending', joined', ran', done' := pending - multiset{n} + BuiltOut(n), (if n == 4 then joined + 1 else joined),
                                        (if n == 0 then ran else ran + {n}), n == 1;
    }
    VisitAt(wf, s, n, pending, joined, ran, pending', joined', ran', done');
    StepVisits(s, c);
  }

  lemma {:induction false} FineRun(wf: WorkFlow, s: Exec, sched: seq<Choice>,
                                   pending: multiset<NodeId>, joined: int, ran: set<NodeId>, done: bool)
    returns (pending': multiset<NodeId>, joined': int, ran': set<NodeId>, done': bool)
    requires FiveNodes(wf) && wf.heap.edges == BuiltEdges()
    requires At(wf, s, pending, joined, ran, done) && Balanced(pending, joined, ran, done)
    requires AllFine(sched)
    ensures At(wf, Run(s, sched), pending', joined', ran', done')
    ensures Balanced(pending', joined', ran', done')
    decreases |sched|
  {
    if sched == [] {
      pending', joined', ran', done' := pending, joined, ran, done;
    } else {
      RunUnfold(s, sched);
      AllFineSplit(sched);
      var p1, j1, r1, d1 := FineStep(wf, s, sched[0], pending, joined, ran, done);
      pending', joined', ran', done' := FineRun(wf, Step(s, sched[0]), sched[1..], p1, j1, r1, d1);
    }
  }

  /**
   * The benchmark's claim for every order of the goroutines: under any
   * schedule in which neither the context nor a task reports an error, no
   * error is recorded, the root runs nothing and every task runs at most
   * once; the workflow is done exactly when nothing is left pending, and
   * then each of add1, add2, multiply and `End` has run exactly once.
   */
  lemma {:induction false} EveryFineRunOfBuiltWf(wf: WorkFlow, sched: seq<Choice>)
    requires FiveNodes(wf) && wf.heap.edges == BuiltEdges()
    requires AllFine(sched)
    ensures Run(Start(wf), sched).wf.err == None
    ensures Count(Run(Start(wf), sched).log, 0) == 0
    ensures forall m :: 1 <= m < 5 ==> Count(Run(Start(wf), sched).log, m) <= 1
    ensures Run(Start(wf), sched).wf.alreadyDone <==> Run(Start(wf), sched).pending == multiset{}
    ensures Run(Start(wf), sched).pending == multiset{} ==>
              forall m :: 1 <= m < 5 ==> Count(Run(Start(wf), sched).log, m) == 1
  {
    StartAt(wf);
    var p, j, ran, done := FineRun(wf, Start(wf), sched, multiset{0}, 0, {}, false);
    FineOutcome(wf, Run(Start(wf), sched), p, j, ran, done);
  }

  /** What a balanced state of the built graph says about the run so far. */
  lemma {:induction false} FineOutcome(wf: WorkFlow, s: Exec, p: multiset<NodeId>, joined: int, ran: set<NodeId>, done: bool)
    requires FiveNodes(wf) && At(wf, s, p, joined, ran, done) && Balanced(p, joined, ran, done)
    ensures s.wf.err == None && Count(s.log, 0) == 0
    ensures forall m :: 1 <= m < 5 ==> Count(s.log, m) <= 1
    ensures s.wf.alreadyDone <==> s.pending == multiset{}
    ensures s.pending == multiset{} ==> forall m :: 1 <= m < 5 ==> Count(s.log, m) == 1
  {
  }
}

=== FILE: check_dag.dfy ===
/**
 * `CheckDAG`: the breadth-first walk from the root that enqueues a node only
 * once every incoming edge of it has been visited, and then compares the
 * number of visited edges with the number of registered edges.
 */
module CheckDag {
  import opened Wrappers
  import opened Task
  import opened Workflow

  // ---------------------------------------------------------------------
  // Vocabulary
  // ---------------------------------------------------------------------

  /** The edges leaving a node of `s`. */
  function SourcesIn(h: Heap, s: seq<NodeId>): set<EdgeId> {
    set e | 0 <= e < |h.edges| && h.edges[e].from in s
  }

  /** `m` has at least one incoming edge and every incoming edge is in `visited`. */
  ghost predicate AllIncomingVisited(h: Heap, m: NodeId, visited: set<EdgeId>)
    requires m < |h.nodes|
  {
    |h.nodes[m].dependency| > 0 && forall d :: d in h.nodes[m].dependency ==> d in visited
  }

  /** Every node of `s` comes after the source of each of its incoming edges. */
  ghost predicate TopologicallyOrdered(h: Heap, s: seq<NodeId>)
    requires Valid(h)
    requires forall i :: 0 <= i < |s| ==> s[i] < |h.nodes|
  {
    forall i :: 0 <= i < |s| ==>
      forall d :: d in h.nodes[s[i]].dependency ==> h.edges[d].from in s[..i]
  }

  /**
   * `s` holds the root and exactly the nodes all of whose (at least one)
   * incoming edges leave nodes of `s`.
   */
  ghost predicate ClosedUnderIncoming(wf: WorkFlow, s: seq<NodeId>)
    requires WfValid(wf)
  {
    forall m :: 0 <= m < |wf.heap.nodes| ==>
      (m in s <==>
        m == wf.root ||
        (|wf.heap.nodes[m].dependency| > 0 &&
         forall d :: d in wf.heap.nodes[m].dependency ==> wf.heap.edges[d].from in s))
  }

  /** `rank` numbers the nodes so that every edge goes from a lower to a higher number. */
  ghost predicate Ranked(h: Heap, rank: seq<nat>)
    requires Valid(h)
  {
    |rank| == |h.nodes| &&
    forall e :: 0 <= e < |h.edges| ==> rank[h.edges[e].from] < rank[h.edges[e].to]
  }

  /** The edges form no cycle. */
  ghost predicate Acyclic(h: Heap)
    requires Valid(h)
  {
    exists rank :: Ranked(h, rank)
  }

  /** Every edge source other than the root has at least one incoming edge. */
  ghost predicate SourcesFed(wf: WorkFlow)
    requires WfValid(wf)
  {
    forall e :: 0 <= e < |wf.heap.edges| && wf.heap.edges[e].from != wf.root ==>
      |wf.heap.nodes[wf.heap.edges[e].from].dependency| > 0
  }

  // ---------------------------------------------------------------------
  // Counting lemmas
  // ---------------------------------------------------------------------

  /** The numbers below `n`. */
  function Range(n: nat): (r: set<nat>)
    ensures forall i :: i in r <==> 0 <= i < n
    ensures |r| == n
  {
    if n == 0 then {} else Range(n - 1) + {n - 1}
  }

  /** The entries of `s`. */
  function Elems(s: seq<NodeId>): (r: set<NodeId>)
    ensures forall x :: x in r <==> x in s
  {
    set x | x in s
  }

  lemma {:induction false} DistinctSize(s: seq<NodeId>)
    requires Distinct(s)
    ensures |Elems(s)| == |s|
  {
    if |s| > 0 {
      var init := s[..|s| - 1];
      var last := s[|s| - 1];
      assert Distinct(init) by {
        forall i, j | 0 <= i < j < |init|
          ensures init[i] != init[j]
        {
          assert init[i] == s[i] && init[j] == s[j];
        }
      }
      DistinctSize(init);
      assert last !in init by {
        forall k | 0 <= k < |init|
          ensures init[k] != last
        {
          assert init[k] == s[k];
        }
      }
      assert s == init + [last];
      assert Elems(s) == Elems(init) + {last};
    }
  }

  /** A subset is no larger, and a subset of the same size is the whole set. */
  lemma {:induction false} SubsetSize(a: set<nat>, b: set<nat>)
    requires a <= b
    ensures |a| <= |b|
    ensures |a| == |b| ==> a == b
    decreases b
  {
    if b != {} {
      var x :| x in b;
      SubsetSize(a - {x}, b - {x});
      if x in a {
        assert a == (a - {x}) + {x};
        assert b == (b - {x}) + {x};
      } else {
        assert a - {x} == a;
      }
    }
  }

  /** A repetition-free sequence of node ids below `n` has at most `n` entries. */
  lemma DistinctBounded(s: seq<NodeId>, n: nat)
    requires Distinct(s)
    requires forall i :: 0 <= i < |s| ==> s[i] < n
    ensures |s| <= n
  {
    DistinctSize(s);
    SubsetSize(Elems(s), Range(n));
  }

  /** A subset of `Range(n)` has `n` elements exactly when it contains every number below `n`. */
  lemma FullSubset(a: set<nat>, n: nat)
    requires a <= Range(n)
    ensures |a| == n <==> forall e :: 0 <= e < n ==> e in a
  {
    SubsetSize(a, Range(n));
    if forall e :: 0 <= e < n ==> e in a {
      assert a == Range(n);
    }
  }

  // ---------------------------------------------------------------------
  // The walk
  // ---------------------------------------------------------------------

  /** The inner dependency loop: every incoming edge is already visited. */
  method AllMarked(deps: seq<EdgeId>, visited: set<EdgeId>) returns (b: bool)
    ensures b <==> forall d :: d in deps ==> d in visited
  {
    var j := 0;
    while j < |deps|
      invariant 0 <= j <= |deps|
      invariant forall k :: 0 <= k < j ==> deps[k] in visited
    {
      if deps[j] !in visited {
        return false;
      }
      j := j + 1;
    }
    return true;
  }

  /**
   * The state of the walk: `sorted` followed by `queue` lists, without
   * repetition and root first, exactly the root and the nodes whose incoming
   * edges are all visited, in topological order.
   */
  ghost predicate WalkInv(wf: WorkFlow, sorted: seq<NodeId>, queue: seq<NodeId>, visited: set<EdgeId>)
    requires WfValid(wf)
  {
    var enq := sorted + queue;
    && |enq| > 0 && enq[0] == wf.root
    && (forall i :: 0 <= i < |enq| ==> enq[i] < |wf.heap.nodes|)
    && Distinct(enq)
    && (forall m :: 0 <= m < |wf.heap.nodes| ==>
          (m in enq <==> (m == wf.root || AllIncomingVisited(wf.heap, m, visited))))
    && TopologicallyOrdered(wf.heap, enq)
  }

  /** The children loop for the just-popped `r`: marks every child edge and enqueues the targets it completes. */
  method VisitChildren(wf: WorkFlow, before: seq<NodeId>, r: NodeId, visited0: set<EdgeId>, queue0: seq<NodeId>)
    returns (visited: set<EdgeId>, queue: seq<NodeId>)
    requires WfValid(wf) && wf.heap.nodes[wf.root].dependency == []
    requires r < |wf.heap.nodes| && r !in before
    requires WalkInv(wf, before + [r], queue0, visited0)
    requires visited0 == SourcesIn(wf.heap, before)
    ensures WalkInv(wf, before + [r], queue, visited)
    ensures visited == SourcesIn(wf.heap, before + [r])
  {
    var h := wf.heap;
    var sorted := before + [r];
    var cs := h.nodes[r].children;
    visited, queue := visited0, queue0;
    var i := 0;
    while i < |cs|
      invariant 0 <= i <= |cs|
      invariant WalkInv(wf, sorted, queue, visited)
      invariant visited == SourcesIn(h, before) + set k | 0 <= k < i :: cs[k]
    {
      var e := cs[i];
      MarkEdge(wf, before, r, i, visited, sorted + queue);
      visited := visited + {e};
      var m := h.edges[e].to;
      var all := AllMarked(h.nodes[m].dependency, visited);
      if all {
        EnqueueKeepsWalkInv(wf, sorted, queue, visited, m);
        queue := queue + [m];
      } else {
        assert WalkInv(wf, sorted, queue, visited);
      }
      i := i + 1;
    }
    SourcesInSnoc(h, before, r);
  }

  /**
   * `CheckDAG`. `sorted` is the walk order; `visits` the nodes handed to the
   * visitor, in order (none without a visitor).
   *
   * The root must have no incoming edge. When some edge enters the root,
   * the Go walk either never reaches all of those edges, and then answers
   * false, or reaches them all and never returns: the root is enqueued
   * again each time, and once every edge is visited a node is enqueued once
   * per incoming edge, so the queue can grow without bound.
   */
  method CheckDAG(wf: WorkFlow, hasVisitor: bool) returns (ok: bool, sorted: seq<NodeId>, visits: seq<NodeId>)
    requires WfValid(wf)
    requires wf.heap.nodes[wf.root].dependency == []
    ensures visits == (if hasVisitor then sorted else [])
    ensures |sorted| > 0 && sorted[0] == wf.root
    ensures Distinct(sorted)
    ensures forall i :: 0 <= i < |sorted| ==> sorted[i] < |wf.heap.nodes|
    ensures TopologicallyOrdered(wf.heap, sorted)
    ensures ClosedUnderIncoming(wf, sorted)
    ensures ok <==> forall e :: 0 <= e < |wf.heap.edges| ==> wf.heap.edges[e].from in sorted
    ensures ok <==> Acyclic(wf.heap) && SourcesFed(wf)
  {
    var h := wf.heap;
    var visited: set<EdgeId> := {};
    sorted := [];
    var queue := [wf.root];
    WalkStarts(wf);

    while |queue| != 0
      invariant WalkInv(wf, sorted, queue, visited)
      invariant visited == SourcesIn(h, sorted)
      decreases |h.nodes| - |sorted|
    {
      DistinctBounded(sorted + queue, |h.nodes|);
      var r := queue[0];
      var before := sorted;
      PopKeepsWalkInv(wf, sorted, queue, visited);
      queue := queue[1..];
      sorted := sorted + [r];
      visited, queue := VisitChildren(wf, before, r, visited, queue);
    }
    assert sorted + queue == sorted;

    visits := if hasVisitor then sorted else [];
    ClosedFromVisited(wf, sorted, visited);
    FullSubset(visited, |h.edges|);
    ok := |visited| == |wf.edges|;
    if ok {
      WalkSound(wf, sorted);
    } else if Acyclic(h) && SourcesFed(wf) {
      var rank :| Ranked(h, rank);
      WalkComplete(wf, sorted, rank);
    }
  }

  lemma WalkStarts(wf: WorkFlow)
    requires WfValid(wf) && wf.heap.nodes[wf.root].dependency == []
    ensures WalkInv(wf, [], [wf.root], {})
    ensures {} == SourcesIn(wf.heap, [])
  {
    var h := wf.heap;
    forall m | 0 <= m < |h.nodes|
      ensures !AllIncomingVisited(h, m, {})
    {
      if |h.nodes[m].dependency| > 0 {
        assert h.nodes[m].dependency[0] in h.nodes[m].dependency;
      }
    }
    assert [] + [wf.root] == [wf.root];
  }

  /** Popping the head of the queue onto `sorted` keeps the walk state. */
  lemma PopKeepsWalkInv(wf: WorkFlow, sorted: seq<NodeId>, queue: seq<NodeId>, visited: set<EdgeId>)
    requires WfValid(wf) && WalkInv(wf, sorted, queue, visited) && |queue| > 0
    ensures WalkInv(wf, sorted + [queue[0]], queue[1..], visited)
    ensures queue[0] < |wf.heap.nodes| && queue[0] !in sorted
  {
    var enq := sorted + queue;
    assert (sorted + [queue[0]]) + queue[1..] == enq;
    assert enq[|sorted|] == queue[0];
    forall k | 0 <= k < |sorted|
      ensures sorted[k] != queue[0]
    {
      assert sorted[k] == enq[k];
    }
  }

  /** Enqueueing `m`, whose incoming edges are all visited, keeps the walk state. */
  lemma EnqueueKeepsWalkInv(wf: WorkFlow, sorted: seq<NodeId>, queue: seq<NodeId>, visited: set<EdgeId>, m: NodeId)
    requires WfValid(wf)
    requires m < |wf.heap.nodes| && m !in sorted + queue && m != wf.root
    requires |sorted + queue| > 0 && (sorted + queue)[0] == wf.root
    requires forall i :: 0 <= i < |sorted + queue| ==> (sorted + queue)[i] < |wf.heap.nodes|
    requires Distinct(sorted + queue)
    requires TopologicallyOrdered(wf.heap, sorted + queue)
    requires AllIncomingVisited(wf.heap, m, visited)
    requires forall m' :: 0 <= m' < |wf.heap.nodes| && m' != m ==>
               (m' in sorted + queue <==> (m' == wf.root || AllIncomingVisited(wf.heap, m', visited)))
    requires forall d :: d in visited ==> d < |wf.heap.edges| && wf.heap.edges[d].from in sorted
    ensures WalkInv(wf, sorted, queue + [m], visited)
  {
    var enq := sorted + queue;
    var enq' := sorted + (queue + [m]);
    assert enq' == enq + [m];
    assert enq'[..|enq'| - 1] == enq;
    assert sorted <= enq;
    AppendKeepsOrder(wf, sorted, enq', m, visited);
  }

  /**
   * Marking child `i` of the just-popped `r`: the edge is new, and its
   * target is not yet enqueued.
   */
  lemma MarkEdge(wf: WorkFlow, before: seq<NodeId>, r: NodeId, i: nat, visited: set<EdgeId>, enq: seq<NodeId>)
    requires WfValid(wf) && wf.heap.nodes[wf.root].dependency == []
    requires r < |wf.heap.nodes| && r !in before
    requires i < |wf.heap.nodes[r].children|
    requires visited == SourcesIn(wf.heap, before) + set k | 0 <= k < i :: wf.heap.nodes[r].children[k]
    requires forall m :: 0 <= m < |wf.heap.nodes| ==>
               (m in enq <==> m == wf.root || AllIncomingVisited(wf.heap, m, visited))
    ensures wf.heap.nodes[r].children[i] !in visited
    ensures wf.heap.edges[wf.heap.nodes[r].children[i]].to !in enq
    ensures forall m :: 0 <= m < |wf.heap.nodes| && m != wf.heap.edges[wf.heap.nodes[r].children[i]].to ==>
              (m in enq <==> (m == wf.root ||
                              AllIncomingVisited(wf.heap, m, visited + {wf.heap.nodes[r].children[i]})))
  {
    var h := wf.heap;
    var cs := h.nodes[r].children;
    var e := cs[i];
    assert IsChildList(h, r, cs);
    assert h.edges[e].from == r;
    var m := h.edges[e].to;
    assert IsDependencyList(h, m, h.nodes[m].dependency);
    assert e in h.nodes[m].dependency;
    assert m != wf.root;
    forall m' | 0 <= m' < |h.nodes| && m' != m
      ensures AllIncomingVisited(h, m', visited + {e}) == AllIncomingVisited(h, m', visited)
    {
      assert IsDependencyList(h, m', h.nodes[m'].dependency);
    }
  }

  /** Appending `m`, whose incoming edges all leave nodes of `sorted`, keeps the order topological. */
  lemma AppendKeepsOrder(wf: WorkFlow, sorted: seq<NodeId>, enq: seq<NodeId>, m: NodeId, visited: set<EdgeId>)
    requires WfValid(wf)
    requires |enq| > 0 && enq[|enq| - 1] == m
    requires forall i :: 0 <= i < |enq| ==> enq[i] < |wf.heap.nodes|
    requires TopologicallyOrdered(wf.heap, enq[..|enq| - 1])
    requires sorted <= enq[..|enq| - 1]
    requires forall d :: d in wf.heap.nodes[m].dependency ==> d in visited
    requires forall d :: d in visited ==> d < |wf.heap.edges| && wf.heap.edges[d].from in sorted
    ensures TopologicallyOrdered(wf.heap, enq)
  {
    var h := wf.heap;
    var prev := enq[..|enq| - 1];
    forall i | 0 <= i < |enq|
      ensures forall d :: d in h.nodes[enq[i]].dependency ==> h.edges[d].from in enq[..i]
    {
      if i < |prev| {
        assert enq[..i] == prev[..i];
        assert enq[i] == prev[i];
      } else {
        assert enq[..i] == prev;
      }
    }
  }

  lemma SourcesInSnoc(h: Heap, s: seq<NodeId>, r: NodeId)
    requires Valid(h) && r < |h.nodes|
    ensures SourcesIn(h, s + [r]) == SourcesIn(h, s) + set k | 0 <= k < |h.nodes[r].children| :: h.nodes[r].children[k]
  {
    assert IsChildList(h, r, h.nodes[r].children);
  }

  /** The closure facts of the walk, restated in terms of `sorted` only. */
  lemma ClosedFromVisited(wf: WorkFlow, sorted: seq<NodeId>, visited: set<EdgeId>)
    requires WfValid(wf)
    requires visited == SourcesIn(wf.heap, sorted)
    requires forall m :: 0 <= m < |wf.heap.nodes| ==>
               (m in sorted <==> m == wf.root || AllIncomingVisited(wf.heap, m, visited))
    ensures ClosedUnderIncoming(wf, sorted)
    ensures visited <= Range(|wf.heap.edges|)
    ensures (forall e :: 0 <= e < |wf.heap.edges| ==> e in visited) <==>
            (forall e :: 0 <= e < |wf.heap.edges| ==> wf.heap.edges[e].from in sorted)
  {
    assert forall e :: 0 <= e < |wf.heap.edges| ==> (e in visited <==> wf.heap.edges[e].from in sorted);
    forall m | 0 <= m < |wf.heap.nodes|
      ensures AllIncomingVisited(wf.heap, m, visited) <==>
              (|wf.heap.nodes[m].dependency| > 0 &&
               forall d :: d in wf.heap.nodes[m].dependency ==> wf.heap.edges[d].from in sorted)
    {
      assert IsDependencyList(wf.heap, m, wf.heap.nodes[m].dependency);
    }
  }

  // ---------------------------------------------------------------------
  // What the answer means
  // ---------------------------------------------------------------------

  /** The position of `x` in `s`. */
  function IndexOf(s: seq<NodeId>, x: NodeId): (i: nat)
    requires x in s
    ensures i < |s| && s[i] == x
  {
    if s[0] == x then 0 else 1 + IndexOf(s[1..], x)
  }

  /**
   * When every edge leaves a node of the walk, the walk order ranks the
   * graph: no cycle, and every source but the root is fed by an edge.
   */
  lemma WalkSound(wf: WorkFlow, sorted: seq<NodeId>)
    requires WfValid(wf)
    requires Distinct(sorted)
    requires forall i :: 0 <= i < |sorted| ==> sorted[i] < |wf.heap.nodes|
    requires TopologicallyOrdered(wf.heap, sorted)
    requires ClosedUnderIncoming(wf, sorted)
    requires forall e :: 0 <= e < |wf.heap.edges| ==> wf.heap.edges[e].from in sorted
    ensures Acyclic(wf.heap) && SourcesFed(wf)
  {
    var h := wf.heap;
    var rank := seq(|h.nodes|, n requires 0 <= n < |h.nodes| => if n in sorted then IndexOf(sorted, n) else 0);
    forall e | 0 <= e < |h.edges|
      ensures rank[h.edges[e].from] < rank[h.edges[e].to]
      ensures h.edges[e].from != wf.root ==> |h.nodes[h.edges[e].from].dependency| > 0
    {
      var f, t := h.edges[e].from, h.edges[e].to;
      assert IsDependencyList(h, t, h.nodes[t].dependency);
      assert e in h.nodes[t].dependency;
      assert t in sorted;
      var j := IndexOf(sorted, t);
      assert f in sorted[..j];
      var i :| 0 <= i < j && sorted[i] == f;
      assert IndexOf(sorted, f) == i;
    }
    assert Ranked(h, rank);
  }

  /**
   * Every edge source is reached by the walk when the graph is ranked and
   * every source but the root is fed; by induction on the rank.
   */
  lemma {:induction false} SourceReached(wf: WorkFlow, sorted: seq<NodeId>, rank: seq<nat>, f: NodeId)
    requires WfValid(wf) && Ranked(wf.heap, rank) && SourcesFed(wf)
    requires ClosedUnderIncoming(wf, sorted)
    requires f < |wf.heap.nodes|
    requires exists e :: 0 <= e < |wf.heap.edges| && wf.heap.edges[e].from == f
    ensures f in sorted
    decreases rank[f]
  {
    var h := wf.heap;
    if f != wf.root {
      var e :| 0 <= e < |h.edges| && h.edges[e].from == f;
      assert |h.nodes[f].dependency| > 0;
      assert IsDependencyList(h, f, h.nodes[f].dependency);
      forall d | d in h.nodes[f].dependency
        ensures h.edges[d].from in sorted
      {
        var g := h.edges[d].from;
        assert rank[g] < rank[f];
        SourceReached(wf, sorted, rank, g);
      }
    }
  }

  lemma WalkComplete(wf: WorkFlow, sorted: seq<NodeId>, rank: seq<nat>)
    requires WfValid(wf) && Ranked(wf.heap, rank) && SourcesFed(wf)
    requires ClosedUnderIncoming(wf, sorted)
    ensures forall e :: 0 <= e < |wf.heap.edges| ==> wf.heap.edges[e].from in sorted
  {
    forall e | 0 <= e < |wf.heap.edges|
      ensures wf.heap.edges[e].from in sorted
    {
      SourceReached(wf, sorted, rank, wf.heap.edges[e].from);
    }
  }

  // ---------------------------------------------------------------------
  // The walk as written, on any graph
  // ---------------------------------------------------------------------

  /** The state of the Go walk: `rootNodes`, `visitEdge` and `sortedNode`. */
  datatype GoWalk = GoWalk(queue: seq<NodeId>, visited: set<EdgeId>, sorted: seq<NodeId>)

  /** Every queued node exists. */
  ghost predicate QueueIn(h: Heap, w: GoWalk) {
    forall i :: 0 <= i < |w.queue| ==> w.queue[i] < |h.nodes|
  }

  /**
   * The children loop over the edges `cs`, with no condition on the root:
   * each edge is marked, and its target is enqueued when all of the
   * target's incoming edges are marked.
   */
  function GoChildren(h: Heap, cs: seq<EdgeId>, w: GoWalk): (r: GoWalk)
    requires Valid(h) && QueueIn(h, w)
    requires forall i :: 0 <= i < |cs| ==> cs[i] < |h.edges|
    ensures QueueIn(h, r) && r.sorted == w.sorted
    ensures forall e :: e in r.visited <==> e in w.visited || e in cs
    ensures |w.queue| <= |r.queue| <= |w.queue| + |cs| && r.queue[..|w.queue|] == w.queue
    decreases |cs|
  {
    if cs == [] then w
    else
      var v := w.visited + {cs[0]};
      var m := h.edges[cs[0]].to;
      var q := if forall d :: d in h.nodes[m].dependency ==> d in v then w.queue + [m] else w.queue;
      var r := GoChildren(h, cs[1..], GoWalk(q, v, w.sorted));
      assert forall e :: e in cs <==> e == cs[0] || e in cs[1..];
      assert r.queue[..|w.queue|] == r.queue[..|q|][..|w.queue|];
      r
  }

  /** One round of the outer loop: pop the head of the queue, record it, walk its children. */
  function GoStep(h: Heap, w: GoWalk): (r: GoWalk)
    requires Valid(h) && QueueIn(h, w) && w.queue != []
    ensures QueueIn(h, r) && r.sorted == w.sorted + [w.queue[0]]
  {
    var n := w.queue[0];
    assert IsChildList(h, n, h.nodes[n].children);
    GoChildren(h, h.nodes[n].children, GoWalk(w.queue[1..], w.visited, w.sorted + [n]))
  }

  /** At most `k` rounds of the outer loop, which stops when the queue is empty. */
  function GoSteps(h: Heap, w: GoWalk, k: nat): (r: GoWalk)
    requires Valid(h) && QueueIn(h, w)
    ensures QueueIn(h, r) && |w.sorted| <= |r.sorted| <= |w.sorted| + k
    ensures r.queue != [] ==> |r.sorted| == |w.sorted| + k
    decreases k
  {
    if k == 0 || w.queue == [] then w else GoSteps(h, GoStep(h, w), k - 1)
  }

  /** The root 0 and one node 1, with edge 0 from 0 to 1 and edge 1 back from 1 to 0. */
  function RootCycle(): Heap {
    Heap([Node(None, [1], 0, [0]), Node(None, [0], 0, [1])], [Edge(0, 1), Edge(1, 0)])
  }

  lemma RootCycleValid()
    ensures Valid(RootCycle())
  {
    var h := RootCycle();
    assert IsChildList(h, 0, [0]) && IsDependencyList(h, 0, [1]);
    assert IsChildList(h, 1, [1]) && IsDependencyList(h, 1, [0]);
  }

  /** The shape of `RootCycle`, stated without its literal. */
  ghost predicate IsRootCycle(h: Heap) {
    && |h.nodes| == 2 && h.edges == [Edge(0, 1), Edge(1, 0)]
    && h.nodes[0].children == [0] && h.nodes[0].dependency == [1]
    && h.nodes[1].children == [1] && h.nodes[1].dependency == [0]
  }

  /** The walk on `RootCycle` alternates between the two nodes, one in the queue at a time. */
  ghost predicate Cycling(w: GoWalk) {
    && (w.queue == [0] || w.queue == [1])
    && (forall e :: e in w.visited ==> e < 2)
    && (w.queue == [1] ==> 0 in w.visited)
  }

  lemma CyclingStep(h: Heap, w: GoWalk)
    requires Valid(h) && IsRootCycle(h) && Cycling(w)
    ensures Cycling(GoStep(h, w))
  {
  }

  lemma GoStepsUnfold(h: Heap, w: GoWalk, k: nat)
    requires Valid(h) && QueueIn(h, w) && w.queue != [] && k > 0
    ensures GoSteps(h, w, k) == GoSteps(h, GoStep(h, w), k - 1)
  {
  }

  lemma {:induction false} CyclingForever(h: Heap, w: GoWalk, k: nat)
    requires Valid(h) && IsRootCycle(h) && Cycling(w)
    ensures Cycling(GoSteps(h, w, k))
    ensures |GoSteps(h, w, k).sorted| == |w.sorted| + k
    decreases k
  {
    if k > 0 {
      CyclingStep(h, w);
      GoStepsUnfold(h, w, k);
      CyclingForever(h, GoStep(h, w), k - 1);
    }
  }

  /**
   * On `RootCycle` the Go walk never ends: after any number of rounds the
   * queue is still not empty, and the walk order has grown by one node per
   * round, so `CheckDAG` never returns an answer for this cyclic graph.
   */
  lemma GoWalkLoopsOnRootCycle(k: nat)
    ensures Valid(RootCycle())
    ensures GoSteps(RootCycle(), GoWalk([0], {}, []), k).queue != []
    ensures |GoSteps(RootCycle(), GoWalk([0], {}, []), k).sorted| == k
  {
    RootCycleValid();
    CyclingForever(RootCycle(), GoWalk([0], {}, []), k);
  }

  // ---------------------------------------------------------------------
  // The walk corrected for an edge into the root
  // ---------------------------------------------------------------------

  /**
   * If some edge enters the root, the graph has a cycle or an edge source
   * other than the root with no incoming edge: following incoming edges
   * backwards from the root, the rank must fall forever.
   */
  lemma {:induction false} FedRootBreaksDag(wf: WorkFlow, rank: seq<nat>, n: NodeId)
    requires WfValid(wf) && |wf.heap.nodes[wf.root].dependency| > 0
    requires n < |wf.heap.nodes| && |wf.heap.nodes[n].dependency| > 0
    ensures !(Ranked(wf.heap, rank) && SourcesFed(wf))
    decreases if n < |rank| then rank[n] else 0
  {
    if Ranked(wf.heap, rank) && SourcesFed(wf) {
      var h := wf.heap;
      assert IsDependencyList(h, n, h.nodes[n].dependency);
      var d := h.nodes[n].dependency[0];
      var x := h.edges[d].from;
      assert rank[x] < rank[n];
      FedRootBreaksDag(wf, rank, x);
    }
  }

  /**
   * `CheckDAG` with the intended answer on every graph: an edge into the
   * root is itself a reason to answer false, and otherwise the walk runs
   * as written.
   */
  method CheckDAGAnyRoot(wf: WorkFlow, hasVisitor: bool) returns (ok: bool, sorted: seq<NodeId>, visits: seq<NodeId>)
    requires WfValid(wf)
    ensures visits == (if hasVisitor then sorted else [])
    ensures |sorted| > 0 && sorted[0] == wf.root
    ensures forall i :: 0 <= i < |sorted| ==> sorted[i] < |wf.heap.nodes|
    ensures wf.heap.nodes[wf.root].dependency == [] ==>
              TopologicallyOrdered(wf.heap, sorted) && ClosedUnderIncoming(wf, sorted)
    ensures ok <==> Acyclic(wf.heap) && SourcesFed(wf)
  {
    if wf.heap.nodes[wf.root].dependency != [] {
      if Acyclic(wf.heap) && SourcesFed(wf) {
        var rank :| Ranked(wf.heap, rank);
        FedRootBreaksDag(wf, rank, wf.root);
      }
      ok, sorted := false, [wf.root];
      visits := if hasVisitor then sorted else [];
    } else {
      ok, sorted, visits := CheckDAG(wf, hasVisitor);
    }
  }
}

=== FILE: execute_env.dfy ===
/**
 * `GoroutineExecuteEnv`: running a workflow.
 *
 * Each call of `execute(ctx, wf, n)` is one atomic *visit* of `n`. Go runs
 * the first child visit inline and spawns the others as goroutines; here
 * every child visit becomes a pending visit in a multiset, and the order in
 * which pending visits are taken is a schedule chosen from outside, which
 * stands for every possible interleaving of the goroutines. What the
 * context reports and what a user task returns at a visit are also chosen
 * from outside (an `Oracle`). Hooks and task bodies are opaque: they leave
 * an event in a log and nothing else.
 */
module ExecuteEnv {
  import opened Wrappers
  import opened Task
  import opened Workflow

  /** What a visit leaves behind, in the order it happens. */
  datatype Event = PreProcess(node: NodeId) | Execute(node: NodeId) | PostProcess(node: NodeId)

  /** The outside world at one visit: `ctx.Err()`, and what a user task returns. */
  datatype Oracle = Oracle(ctxErr: Option<Error>, taskErr: Option<Error>)

  /** One scheduling decision: which pending visit runs next, and its oracle. */
  datatype Choice = Choice(node: NodeId, oracle: Oracle)

  /** A running workflow: its state, the visits not yet taken, and what has run so far. */
  datatype Exec = Exec(wf: WorkFlow, pending: multiset<NodeId>, log: seq<Event>)

  ghost predicate ExecValid(s: Exec) {
    WfValid(s.wf) && forall n :: n in s.pending ==> n < |s.wf.heap.nodes|
  }

  /** Running changes counters and completion state only: edges, lists, tasks and anchors stay. */
  ghost predicate SameGraph(a: WorkFlow, b: WorkFlow) {
    && a.heap.edges == b.heap.edges && a.edges == b.edges
    && a.root == b.root && a.end == b.end
    && |a.heap.nodes| == |b.heap.nodes|
    && (forall n :: 0 <= n < |a.heap.nodes| ==>
          && b.heap.nodes[n].task == a.heap.nodes[n].task
          && b.heap.nodes[n].dependency == a.heap.nodes[n].dependency
          && b.heap.nodes[n].children == a.heap.nodes[n].children)
  }

  lemma SameGraphKeepsValid(a: WorkFlow, b: WorkFlow)
    requires WfValid(a) && SameGraph(a, b)
    ensures WfValid(b)
  {
    forall n | 0 <= n < |b.heap.nodes|
      ensures IsChildList(b.heap, n, b.heap.nodes[n].children)
      ensures IsDependencyList(b.heap, n, b.heap.nodes[n].dependency)
    {
      assert IsChildList(a.heap, n, a.heap.nodes[n].children);
      assert IsDependencyList(a.heap, n, a.heap.nodes[n].dependency);
    }
  }

  lemma SameGraphTransitive(a: WorkFlow, b: WorkFlow, c: WorkFlow)
    requires SameGraph(a, b) && SameGraph(b, c)
    ensures SameGraph(a, c)
  {
  }

  /** `b` differs from `a` at most in its completion flag and its error. */
  ghost predicate OnlyCompletion(a: WorkFlow, b: WorkFlow) {
    b == a.(alreadyDone := b.alreadyDone, err := b.err)
  }

  // ---------------------------------------------------------------------
  // Counting task runs, and the order of hooks around a task
  // ---------------------------------------------------------------------

  /** How many times the task of `m` has run. */
  function Count(log: seq<Event>, m: NodeId): (c: nat)
    ensures c <= |log|
    ensures c == 0 <==> Execute(m) !in log
  {
    if log == [] then 0
    else Count(log[..|log| - 1], m) + (if log[|log| - 1] == Execute(m) then 1 else 0)
  }

  lemma {:induction false} CountAppend(a: seq<Event>, b: seq<Event>, m: NodeId)
    ensures Count(a + b, m) == Count(a, m) + Count(b, m)
    decreases |b|
  {
    if b != [] {
      var b' := b[..|b| - 1];
      assert (a + b)[..|a + b| - 1] == a + b';
      CountAppend(a, b', m);
    } else {
      assert a + b == a;
    }
  }

  function HasPre(h: Heap, n: NodeId): bool
    requires n < |h.nodes|
  {
    h.nodes[n].task.Some? && h.nodes[n].task.value.preProcess.Some?
  }

  function HasPost(h: Heap, n: NodeId): bool
    requires n < |h.nodes|
  {
    h.nodes[n].task.Some? && h.nodes[n].task.value.postProcess.Some?
  }

  /**
   * Hooks run only when set, and right around their task: a pre-process
   * hook immediately before its `Execute`, a task with a pre-process hook
   * never without it, and a post-process hook immediately after its
   * `Execute`.
   */
  ghost predicate HooksInOrder(h: Heap, log: seq<Event>) {
    && (forall i :: 0 <= i < |log| ==> log[i].node < |h.nodes|)
    && (forall i :: 0 <= i < |log| && log[i].PreProcess? ==>
          HasPre(h, log[i].node) && i + 1 < |log| && log[i + 1] == Execute(log[i].node))
    && (forall i :: 0 <= i < |log| && log[i].Execute? && HasPre(h, log[i].node) ==>
          0 < i && log[i - 1] == PreProcess(log[i].node))
    && (forall i :: 0 <= i < |log| && log[i].PostProcess? ==>
          HasPost(h, log[i].node) && 0 < i && log[i - 1] == Execute(log[i].node))
  }

  lemma HooksInOrderAppend(h: Heap, a: seq<Event>, b: seq<Event>)
    requires HooksInOrder(h, a) && HooksInOrder(h, b)
    ensures HooksInOrder(h, a + b)
  {
    var ab := a + b;
    forall i | 0 <= i < |ab|
      ensures ab[i] == if i < |a| then a[i] else b[i - |a|]
    {
    }
  }

  lemma HooksInOrderSameGraph(a: WorkFlow, b: WorkFlow, log: seq<Event>)
    requires SameGraph(a, b) && HooksInOrder(a.heap, log)
    ensures HooksInOrder(b.heap, log)
  {
    forall i | 0 <= i < |log|
      ensures HasPre(a.heap, log[i].node) == HasPre(b.heap, log[i].node)
      ensures HasPost(a.heap, log[i].node) == HasPost(b.heap, log[i].node)
    {
    }
  }

  /** The events of one task run: its pre-process hook if set, `Execute`, and its post-process hook if set and the task succeeded. */
  function TaskEvents(n: NodeId, t: Task, succeeded: bool): (evs: seq<Event>)
    ensures forall i :: 0 <= i < |evs| ==> evs[i].node == n
    ensures Count(evs, n) == 1
    ensures !succeeded ==> evs[|evs| - 1] == Execute(n)
    ensures t.preProcess.Some? <==> evs[0] == PreProcess(n)
    ensures succeeded && t.postProcess.Some? <==> evs[|evs| - 1] == PostProcess(n)
  {
    var pre := if t.preProcess.Some? then [PreProcess(n)] else [];
    var post := if succeeded && t.postProcess.Some? then [PostProcess(n)] else [];
    CountAppend(pre, [Execute(n)], n);
    CountAppend(pre + [Execute(n)], post, n);
    pre + [Execute(n)] + post
  }

  /** Within one task run, each hook sits right next to the `Execute` it belongs to. */
  lemma TaskEventsInOrder(h: Heap, n: NodeId, t: Task, succeeded: bool)
    requires n < |h.nodes| && h.nodes[n].task == Some(t)
    ensures HooksInOrder(h, TaskEvents(n, t, succeeded))
  {
  }

  /** A log extended by one task's events keeps its prefix, and the new part is those events. */
  lemma TaskLog(h: Heap, n: NodeId, t: Task, succeeded: bool, log: seq<Event>, log': seq<Event>)
    requires n < |h.nodes| && h.nodes[n].task == Some(t)
    requires log' == log + TaskEvents(n, t, succeeded)
    ensures |log| <= |log'| && log'[..|log|] == log
    ensures log'[|log|..] == TaskEvents(n, t, succeeded)
    ensures forall i :: |log| <= i < |log'| ==> log'[i].node == n
    ensures Count(log'[|log|..], n) == 1
    ensures HooksInOrder(h, log'[|log|..])
  {
    assert log'[|log|..] == TaskEvents(n, t, succeeded);
    TaskEventsInOrder(h, n, t, succeeded);
  }

  // ---------------------------------------------------------------------
  // One visit
  // ---------------------------------------------------------------------

  /** `Execute(ctx, wf)`: a single pending visit, of the root, and nothing run yet. */
  function Start(wf: WorkFlow): (s: Exec)
    requires WfValid(wf)
    ensures ExecValid(s) && s.wf == wf
    ensures s.pending == multiset{wf.root} && s.log == []
  {
    Exec(wf, multiset{wf.root}, [])
  }

  /** The `To` node of each edge in `cs`, in order. */
  function Targets(h: Heap, cs: seq<EdgeId>): (r: seq<NodeId>)
    requires forall i :: 0 <= i < |cs| ==> cs[i] < |h.edges|
    ensures |r| == |cs|
    ensures forall i :: 0 <= i < |cs| ==> r[i] == h.edges[cs[i]].to
  {
    seq(|cs|, i requires 0 <= i < |cs| => h.edges[cs[i]].to)
  }

  /** A multiset built from a sequence holds each value as often as the sequence has positions holding it. */
  lemma {:induction false} MultiplicityIsPositions(s: seq<NodeId>, m: NodeId)
    ensures multiset(s)[m] == |set i | 0 <= i < |s| && s[i] == m|
  {
    if s != [] {
      var t := s[..|s| - 1];
      MultiplicityIsPositions(t, m);
      assert s == t + [s[|s| - 1]];
      var before := set i | 0 <= i < |t| && t[i] == m;
      var after := set i | 0 <= i < |s| && s[i] == m;
      if s[|s| - 1] == m {
        assert after == before + {|s| - 1};
      } else {
        assert after == before;
      }
    }
  }

  /** One pending visit per child edge of `n`: the inline first child and the spawned rest alike. */
  function FanOut(wf: WorkFlow, n: NodeId): (r: multiset<NodeId>)
    requires WfValid(wf) && n < |wf.heap.nodes|
    ensures |r| == |wf.heap.nodes[n].children|
    ensures forall m :: m in r ==> m < |wf.heap.nodes|
    ensures forall m :: r[m] == |set i | 0 <= i < |wf.heap.nodes[n].children|
                                       && wf.heap.edges[wf.heap.nodes[n].children[i]].to == m|
  {
    assert IsChildList(wf.heap, n, wf.heap.nodes[n].children);
    var ts := Targets(wf.heap, wf.heap.nodes[n].children);
    assert forall m :: m in multiset(ts) ==> m in ts;
    TargetMultiplicity(wf.heap, wf.heap.nodes[n].children, ts);
    multiset(ts)
  }

  lemma TargetMultiplicity(h: Heap, cs: seq<EdgeId>, ts: seq<NodeId>)
    requires forall i :: 0 <= i < |cs| ==> cs[i] < |h.edges|
    requires |ts| == |cs| && forall i :: 0 <= i < |cs| ==> ts[i] == h.edges[cs[i]].to
    ensures forall m :: multiset(ts)[m] == |set i | 0 <= i < |cs| && h.edges[cs[i]].to == m|
  {
    forall m ensures multiset(ts)[m] == |set i | 0 <= i < |cs| && h.edges[cs[i]].to == m| {
      MultiplicityIsPositions(ts, m);
      assert (set i | 0 <= i < |ts| && ts[i] == m) == (set i | 0 <= i < |cs| && h.edges[cs[i]].to == m);
    }
  }

  lemma FanOutSameGraph(a: WorkFlow, b: WorkFlow, n: NodeId)
    requires WfValid(a) && WfValid(b) && SameGraph(a, b) && n < |a.heap.nodes|
    ensures FanOut(a, n) == FanOut(b, n)
  {
    assert Targets(a.heap, a.heap.nodes[n].children) == Targets(b.heap, b.heap.nodes[n].children);
  }

  /** The answer of `dependencySatisfied` at a visit of `n`. */
  function Ready(s: Exec, n: NodeId): bool
    requires ExecValid(s) && n < |s.wf.heap.nodes|
  {
    DependencySatisfied(s.wf.heap.nodes[n]).ready
  }

  /** The visit gets past the readiness, completion and context checks. */
  function Proceeds(s: Exec, n: NodeId, o: Oracle): bool
    requires ExecValid(s) && n < |s.wf.heap.nodes|
  {
    Ready(s, n) && !s.wf.alreadyDone && o.ctxErr.None?
  }

  /** The visit runs the node's task. */
  function Runs(s: Exec, n: NodeId, o: Oracle): bool
    requires ExecValid(s) && n < |s.wf.heap.nodes|
  {
    Proceeds(s, n, o) && s.wf.heap.nodes[n].task.Some?
  }

  /** The visit runs a user task that returns an error. */
  function Fails(s: Exec, n: NodeId, o: Oracle): bool
    requires ExecValid(s) && n < |s.wf.heap.nodes|
  {
    Runs(s, n, o) && s.wf.heap.nodes[n].task.value.body.UserBody? && o.taskErr.Some?
  }

  /**
   * The task branch of a visit: hooks, the task, and on success the
   * fan-out. The `End` task marks the workflow done and returns nil.
   */
  function RunTask(wf: WorkFlow, n: NodeId, t: Task, taskErr: Option<Error>, rest: multiset<NodeId>, log: seq<Event>): (r: Exec)
    requires WfValid(wf) && n < |wf.heap.nodes| && wf.heap.nodes[n].task == Some(t)
    requires forall m :: m in rest ==> m < |wf.heap.nodes|
    ensures ExecValid(r) && OnlyCompletion(wf, r.wf)
    ensures t.body.UserBody? && taskErr.Some? ==>
              && r.log == log + TaskEvents(n, t, false)
              && r.pending == rest
              && r.wf.err == taskErr && r.wf.alreadyDone
    ensures t.body.EndBody? || taskErr.None? ==>
              && r.log == log + TaskEvents(n, t, true)
              && r.pending == rest + FanOut(wf, n)
              && r.wf.err == wf.err
              && r.wf.alreadyDone == (wf.alreadyDone || t.body.EndBody?)
  {
    if t.body.UserBody? && taskErr.Some? then
      Exec(ErrDone(wf, taskErr.value), rest, log + TaskEvents(n, t, false))
    else
      var wf' := if t.body.EndBody? then Done(wf) else wf;
      Exec(wf', rest + FanOut(wf, n), log + TaskEvents(n, t, true))
  }

  /** The workflow after `dependencySatisfied` on `n`: only the counter of `n` may move. */
  function Tick(wf: WorkFlow, n: NodeId): (r: WorkFlow)
    requires WfValid(wf) && n < |wf.heap.nodes|
    ensures WfValid(r) && SameGraph(wf, r)
    ensures r.alreadyDone == wf.alreadyDone && r.err == wf.err
    ensures forall m :: 0 <= m < |wf.heap.nodes| && m != n ==>
              r.heap.nodes[m].depCompleted == wf.heap.nodes[m].depCompleted
    ensures r.heap.nodes[n] == DependencySatisfied(wf.heap.nodes[n]).node
  {
    var r := wf.(heap := wf.heap.(nodes := wf.heap.nodes[n := DependencySatisfied(wf.heap.nodes[n]).node]));
    assert SameGraph(wf, r);
    SameGraphKeepsValid(wf, r);
    r
  }

  /**
   * A visit past a positive readiness check: the completion check, the
   * context check, then the task and the fan-out.
   */
  function Proceed(wf: WorkFlow, n: NodeId, o: Oracle, rest: multiset<NodeId>, log: seq<Event>): (r: Exec)
    requires WfValid(wf) && n < |wf.heap.nodes|
    requires forall m :: m in rest ==> m < |wf.heap.nodes|
    ensures ExecValid(r) && OnlyCompletion(wf, r.wf)
    ensures |log| <= |r.log| && r.log[..|log|] == log
    ensures forall i :: |log| <= i < |r.log| ==> r.log[i].node == n
    ensures Count(r.log[|log|..], n) ==
              if !wf.alreadyDone && o.ctxErr.None? && wf.heap.nodes[n].task.Some? then 1 else 0
    ensures HooksInOrder(r.wf.heap, r.log[|log|..])
    ensures wf.alreadyDone ==>
              r.log == log && r.pending == rest && r.wf.err == wf.err && r.wf.alreadyDone
    ensures !wf.alreadyDone && o.ctxErr.Some? ==>
              r.log == log && r.pending == rest && r.wf.err == o.ctxErr && r.wf.alreadyDone
    ensures !wf.alreadyDone && o.ctxErr.None? && wf.heap.nodes[n].task.Some? &&
            wf.heap.nodes[n].task.value.body.UserBody? && o.taskErr.Some? ==>
              && r.log[|r.log| - 1] == Execute(n)
              && r.pending == rest && r.wf.err == o.taskErr && r.wf.alreadyDone
    ensures !wf.alreadyDone && o.ctxErr.None? &&
            !(wf.heap.nodes[n].task.Some? && wf.heap.nodes[n].task.value.body.UserBody? && o.taskErr.Some?) ==>
              && r.pending == rest + FanOut(wf, n)
              && r.wf.err == wf.err
              && (r.wf.alreadyDone <==> wf.heap.nodes[n].task.Some? && wf.heap.nodes[n].task.value.body.EndBody?)
  {
    assert log[|log|..] == [];
    if wf.alreadyDone then
      Exec(wf, rest, log)
    else if o.ctxErr.Some? then
      Exec(ErrDone(wf, o.ctxErr.value), rest, log)
    else
      match wf.heap.nodes[n].task
      case None =>
        Exec(wf, rest + FanOut(wf, n), log)
      case Some(t) =>
        var r := RunTask(wf, n, t, o.taskErr, rest, log);
        TaskLog(r.wf.heap, n, t, t.body.EndBody? || o.taskErr.None?, log, r.log);
        r
  }

  /**
   * `execute(ctx, wf, n)` for one pending visit of `n`: the readiness
   * check, then the completion check, then the context check, then the
   * task, then one pending visit per child edge.
   */
  function Visit(s: Exec, n: NodeId, o: Oracle): (r: Exec)
    requires ExecValid(s) && n in s.pending
    ensures ExecValid(r) && SameGraph(s.wf, r.wf)
    // the readiness check is the only counter update
    ensures forall m :: 0 <= m < |s.wf.heap.nodes| && m != n ==>
              r.wf.heap.nodes[m].depCompleted == s.wf.heap.nodes[m].depCompleted
    ensures r.wf.heap.nodes[n] == DependencySatisfied(s.wf.heap.nodes[n]).node
    // the log only grows, by events of `n`, and the task runs once or not at all
    ensures |s.log| <= |r.log| && r.log[..|s.log|] == s.log
    ensures forall i :: |s.log| <= i < |r.log| ==> r.log[i].node == n
    ensures Count(r.log[|s.log|..], n) == if Runs(s, n, o) then 1 else 0
    ensures HooksInOrder(r.wf.heap, r.log[|s.log|..])
    // not ready, or already done: nothing runs, no child is visited, state stays
    ensures !Ready(s, n) || s.wf.alreadyDone ==>
              && r.log == s.log && r.pending == s.pending - multiset{n}
              && r.wf.err == s.wf.err && r.wf.alreadyDone == s.wf.alreadyDone
    // cancelled: the context's error is recorded, nothing runs, no child is visited
    ensures Ready(s, n) && !s.wf.alreadyDone && o.ctxErr.Some? ==>
              && r.log == s.log && r.pending == s.pending - multiset{n}
              && r.wf.err == o.ctxErr && r.wf.alreadyDone
    // the task fails: its error is recorded, no post-process hook, no child is visited
    ensures Fails(s, n, o) ==>
              && r.log[|r.log| - 1] == Execute(n)
              && r.pending == s.pending - multiset{n}
              && r.wf.err == o.taskErr && r.wf.alreadyDone
    // success: exactly one pending visit per child edge
    ensures Proceeds(s, n, o) && !Fails(s, n, o) ==>
              && r.pending == s.pending - multiset{n} + FanOut(s.wf, n)
              && r.wf.err == s.wf.err
              // only the `End` task completes a run without an error
              && (r.wf.alreadyDone <==> Runs(s, n, o) && s.wf.heap.nodes[n].task.value.body.EndBody?)
  {
    var wf := Tick(s.wf, n);
    var rest := s.pending - multiset{n};
    FanOutSameGraph(s.wf, wf, n);
    if !DependencySatisfied(s.wf.heap.nodes[n]).ready then
      assert s.log[|s.log|..] == [];
      Exec(wf, rest, s.log)
    else
      var r := Proceed(wf, n, o, rest, s.log);
      assert SameGraph(wf, r.wf);
      r
  }

  // ---------------------------------------------------------------------
  // Runs under a schedule
  // ---------------------------------------------------------------------

  /** One step of `Run`. */
  function Step(s: Exec, c: Choice): (r: Exec)
    requires ExecValid(s)
    ensures ExecValid(r) && SameGraph(s.wf, r.wf)
    ensures |s.log| <= |r.log| && r.log[..|s.log|] == s.log
  {
    if c.node in s.pending then Visit(s, c.node, c.oracle) else s
  }

  /**
   * Take the visits `sched` names, in order. A choice naming no pending
   * visit changes nothing, so every interleaving of the goroutines is some
   * schedule.
   */
  function Run(s: Exec, sched: seq<Choice>): (r: Exec)
    requires ExecValid(s)
    ensures ExecValid(r) && SameGraph(s.wf, r.wf)
    ensures |s.log| <= |r.log| && r.log[..|s.log|] == s.log
    decreases |sched|
  {
    if sched == [] then s
    else
      var s' := Step(s, sched[0]);
      var r := Run(s', sched[1..]);
      SameGraphTransitive(s.wf, s'.wf, r.wf);
      PrefixTransitive(s.log, s'.log, r.log);
      r
  }

  lemma PrefixTransitive(a: seq<Event>, b: seq<Event>, c: seq<Event>)
    requires |a| <= |b| && b[..|a|] == a
    requires |b| <= |c| && c[..|b|] == b
    ensures |a| <= |c| && c[..|a|] == a
  {
    assert c[..|a|] == c[..|b|][..|a|];
  }

  lemma RunUnfold(s: Exec, sched: seq<Choice>)
    requires ExecValid(s) && sched != []
    ensures Run(s, sched) == Run(Step(s, sched[0]), sched[1..])
  {
  }

  // ---------------------------------------------------------------------
  // A join node runs its task at most once
  // ---------------------------------------------------------------------

  /** The task of `j` has run at most once, and if it has, its counter has reached its in-degree. */
  ghost predicate JoinInv(s: Exec, j: NodeId)
    requires ExecValid(s) && j < |s.wf.heap.nodes|
  {
    && Count(s.log, j) <= 1
    && (Count(s.log, j) == 1 ==> s.wf.heap.nodes[j].depCompleted >= |s.wf.heap.nodes[j].dependency|)
  }

  /** A visit of `n` adds one run of `n`'s task when it runs it, and no run of any other task. */
  lemma VisitCount(s: Exec, n: NodeId, o: Oracle, m: NodeId)
    requires ExecValid(s) && n in s.pending
    ensures Count(Visit(s, n, o).log, m) == Count(s.log, m) + if m == n && Runs(s, n, o) then 1 else 0
  {
    var r := Visit(s, n, o);
    var evs := r.log[|s.log|..];
    assert r.log == s.log + evs;
    CountAppend(s.log, evs, m);
    if m != n {
      assert Execute(m) !in evs;
    }
  }

  lemma VisitKeepsJoinInv(s: Exec, n: NodeId, o: Oracle, j: NodeId)
    requires ExecValid(s) && n in s.pending && j < |s.wf.heap.nodes|
    requires |s.wf.heap.nodes[j].dependency| >= 2
    requires JoinInv(s, j)
    ensures JoinInv(Visit(s, n, o), j)
  {
    VisitCount(s, n, o, j);
  }

  lemma {:induction false} RunKeepsJoinInv(s: Exec, sched: seq<Choice>, j: NodeId)
    requires ExecValid(s) && j < |s.wf.heap.nodes|
    requires |s.wf.heap.nodes[j].dependency| >= 2
    requires JoinInv(s, j)
    ensures JoinInv(Run(s, sched), j)
    decreases |sched|
  {
    if sched != [] {
      RunUnfold(s, sched);
      var c := sched[0];
      if c.node in s.pending {
        VisitKeepsJoinInv(s, c.node, c.oracle, j);
      }
      RunKeepsJoinInv(Step(s, c), sched[1..], j);
    }
  }

  /**
   * Under every schedule and every outcome, a node with two or more
   * dependencies runs its task at most once.
   */
  lemma JoinRunsAtMostOnce(wf: WorkFlow, sched: seq<Choice>, j: NodeId)
    requires WfValid(wf) && j < |wf.heap.nodes|
    requires |wf.heap.nodes[j].dependency| >= 2
    ensures Count(Run(Start(wf), sched).log, j) <= 1
  {
    RunKeepsJoinInv(Start(wf), sched, j);
  }

  /** How many steps of `sched`, run from `s`, take a pending visit of `j` that passes its readiness check. */
  ghost function ReadyVisits(s: Exec, sched: seq<Choice>, j: NodeId): nat
    requires ExecValid(s) && j < |s.wf.heap.nodes|
    decreases |sched|
  {
    if sched == [] then 0
    else
      var c := sched[0];
      (if c.node == j && j in s.pending && Ready(s, j) then 1 else 0) + ReadyVisits(Step(s, c), sched[1..], j)
  }

  /**
   * Under every schedule and every outcome, a node with two or more
   * dependencies passes its readiness check at most once, and never once
   * its counter has reached its number of dependencies. So it fans out at
   * most once, whether or not it has a task.
   */
  lemma {:induction false} JoinReadyAtMostOnce(s: Exec, sched: seq<Choice>, j: NodeId)
    requires ExecValid(s) && j < |s.wf.heap.nodes|
    requires |s.wf.heap.nodes[j].dependency| >= 2
    ensures ReadyVisits(s, sched, j) <=
              if s.wf.heap.nodes[j].depCompleted < |s.wf.heap.nodes[j].dependency| then 1 else 0
    decreases |sched|
  {
    if sched != [] {
      var c := sched[0];
      var s' := Step(s, c);
      JoinReadyAtMostOnce(s', sched[1..], j);
      if c.node in s.pending {
        assert s'.wf.heap.nodes[j].depCompleted ==
                 s.wf.heap.nodes[j].depCompleted + if c.node == j then 1 else 0;
      }
    }
  }

  /** From the start of a run, a join node passes its readiness check at most once. */
  lemma JoinReadyOnceFromStart(wf: WorkFlow, sched: seq<Choice>, j: NodeId)
    requires WfValid(wf) && j < |wf.heap.nodes|
    requires |wf.heap.nodes[j].dependency| >= 2
    ensures ReadyVisits(Start(wf), sched, j) <= 1
  {
    JoinReadyAtMostOnce(Start(wf), sched, j);
  }

  // ---------------------------------------------------------------------
  // Completion is final
  // ---------------------------------------------------------------------

  /**
   * Once the workflow is done, no further task or hook runs and the
   * recorded error no longer changes.
   */
  lemma {:induction false} DoneIsFinal(s: Exec, sched: seq<Choice>)
    requires ExecValid(s) && s.wf.alreadyDone
    ensures Run(s, sched).log == s.log
    ensures Run(s, sched).wf.alreadyDone && Run(s, sched).wf.err == s.wf.err
    decreases |sched|
  {
    if sched != [] {
      RunUnfold(s, sched);
      DoneIsFinal(Step(s, sched[0]), sched[1..]);
    }
  }

  // ---------------------------------------------------------------------
  // Cancellation
  // ---------------------------------------------------------------------

  /** Every visit sees a cancelled context. */
  ghost predicate Cancelled(sched: seq<Choice>) {
    forall i :: 0 <= i < |sched| ==> sched[i].oracle.ctxErr.Some?
  }

  /** With the context cancelled throughout, no task runs and no visit is added. */
  lemma {:induction false} CancelledRunsNothing(s: Exec, sched: seq<Choice>)
    requires ExecValid(s) && Cancelled(sched)
    ensures Run(s, sched).log == s.log
    ensures Run(s, sched).pending <= s.pending
    decreases |sched|
  {
    if sched != [] {
      RunUnfold(s, sched);
      assert Cancelled(sched[1..]);
      CancelledRunsNothing(Step(s, sched[0]), sched[1..]);
    }
  }

  /**
   * A run whose context is already cancelled: the root's visit records the
   * context's error and completes the workflow, and nothing ever runs.
   */
  lemma CancelledAtStart(wf: WorkFlow, sched: seq<Choice>)
    requires WfValid(wf) && !wf.alreadyDone
    requires |wf.heap.nodes[wf.root].dependency| <= 1
    requires sched != [] && sched[0].node == wf.root && Cancelled(sched)
    ensures Run(Start(wf), sched).log == []
    ensures Run(Start(wf), sched).wf.alreadyDone
    ensures Run(Start(wf), sched).wf.err == sched[0].oracle.ctxErr
  {
    var s := Start(wf);
    RunUnfold(s, sched);
    var s' := Step(s, sched[0]);
    DoneIsFinal(s', sched[1..]);
  }

  /**
   * A root with two or more incoming edges is a join: its first visit, made
   * with the context already cancelled, fails the readiness check before
   * the context is consulted. No error is recorded, the workflow is not
   * completed, and nothing is left pending, so the run is over without
   * ever marking the workflow done.
   */
  lemma CancelledJoinRootHangs(wf: WorkFlow, e: Error)
    requires WfValid(wf) && !wf.alreadyDone
    requires |wf.heap.nodes[wf.root].dependency| >= 2
    requires wf.heap.nodes[wf.root].depCompleted + 1 != |wf.heap.nodes[wf.root].dependency|
    ensures Run(Start(wf), [Choice(wf.root, Oracle(Some(e), None))]).wf.err == wf.err
    ensures !Run(Start(wf), [Choice(wf.root, Oracle(Some(e), None))]).wf.alreadyDone
    ensures Run(Start(wf), [Choice(wf.root, Oracle(Some(e), None))]).pending == multiset{}
    ensures Run(Start(wf), [Choice(wf.root, Oracle(Some(e), None))]).log == []
  {
    RunUnfold(Start(wf), [Choice(wf.root, Oracle(Some(e), None))]);
  }

  // ---------------------------------------------------------------------
  // Hooks run in order around their task
  // ---------------------------------------------------------------------

  lemma VisitKeepsHooksInOrder(s: Exec, n: NodeId, o: Oracle)
    requires ExecValid(s) && n in s.pending && HooksInOrder(s.wf.heap, s.log)
    ensures HooksInOrder(Visit(s, n, o).wf.heap, Visit(s, n, o).log)
  {
    var r := Visit(s, n, o);
    var evs := r.log[|s.log|..];
    assert r.log == s.log + evs;
    HooksInOrderSameGraph(s.wf, r.wf, s.log);
    HooksInOrderAppend(r.wf.heap, s.log, evs);
  }

  lemma {:induction false} RunKeepsHooksInOrder(s: Exec, sched: seq<Choice>)
    requires ExecValid(s) && HooksInOrder(s.wf.heap, s.log)
    ensures HooksInOrder(Run(s, sched).wf.heap, Run(s, sched).log)
    decreases |sched|
  {
    if sched != [] {
      RunUnfold(s, sched);
      var c := sched[0];
      var s' := Step(s, c);
      if c.node in s.pending {
        VisitKeepsHooksInOrder(s, c.node, c.oracle);
      }
      RunKeepsHooksInOrder(s', sched[1..]);
    }
  }

  /**
   * Under every schedule: a pre-process hook runs right before its task and
   * a task with one never runs without it; a post-process hook runs right
   * after its task.
   */
  lemma HooksRunInOrder(wf: WorkFlow, sched: seq<Choice>)
    requires WfValid(wf)
    ensures HooksInOrder(Run(Start(wf), sched).wf.heap, Run(Start(wf), sched).log)
  {
    RunKeepsHooksInOrder(Start(wf), sched);
  }
}

=== FILE: scenario.dfy ===
/**
 * The graph the package's tests build: `add1` and `add2` hang off the
 * root, `multiply` joins them, and `AutoConnectToEnd` links `multiply` to
 * `End`. `CheckDAG` accepts it and visits every node.
 */
module Scenario {
  import opened Wrappers
  import opened Task
  import opened Workflow
  import opened CheckDag
  import opened ExecuteEnv

  /** A node is childless exactly when no edge leaves it. */
  lemma ChildlessIffNoOutgoing(wf: WorkFlow, n: NodeId)
    requires WfValid(wf) && n < |wf.heap.nodes|
    ensures |wf.heap.nodes[n].children| == 0 <==>
              forall e :: 0 <= e < |wf.heap.edges| ==> wf.heap.edges[e].from != n
  {
    assert IsChildList(wf.heap, n, wf.heap.nodes[n].children);
    if |wf.heap.nodes[n].children| > 0 {
      var c := wf.heap.nodes[n].children[0];
      assert wf.heap.edges[c].from == n;
    }
  }

  /** A node has no dependency edge exactly when no edge enters it. */
  lemma UnfedIffNoIncoming(wf: WorkFlow, n: NodeId)
    requires WfValid(wf) && n < |wf.heap.nodes|
    ensures |wf.heap.nodes[n].dependency| == 0 <==>
              forall e :: 0 <= e < |wf.heap.edges| ==> wf.heap.edges[e].to != n
  {
    assert IsDependencyList(wf.heap, n, wf.heap.nodes[n].dependency);
    if |wf.heap.nodes[n].dependency| > 0 {
      var d := wf.heap.nodes[n].dependency[0];
      assert wf.heap.edges[d].to == n;
    }
  }

  /** A workflow with one node added, and that node. */
  datatype Added = Added(wf: WorkFlow, node: NodeId)

  /**
   * `NewClosureTaskNode(fn, WithTaskName(name))` in the workflow's heap: one
   * fresh node whose task is the closure, named `name`, with no hooks, no
   * edges and a zero counter; nothing else changes.
   */
  function NewClosureNode(wf: WorkFlow, id: nat, name: string): (r: Added)
    ensures WfValid(wf) ==> WfValid(r.wf)
    ensures r.node == |wf.heap.nodes|
    ensures r.wf == wf.(heap := Heap(wf.heap.nodes + [Node(Some(Task(UserBody(id), name, None, None)), [], 0, [])], wf.heap.edges))
  {
    var a := NewTaskNode(wf.heap, UserBody(id), [WithTaskName(name)]);
    assert LastName([WithTaskName(name)]) == Some(name);
    assert LastPre([WithTaskName(name)]) == None;
    assert LastPost([WithTaskName(name)]) == None;
    Added(wf.(heap := a.heap), a.node)
  }

  /** The closure tasks of `buildWf`: names only, no hooks. */
  function TaskOf(k: NodeId): Option<Task> {
    if k == 0 then None
    else if k == 1 then Some(Task(EndBody, "end", None, None))
    else if k == 2 then Some(Task(UserBody(1), "add1", None, None))
    else if k == 3 then Some(Task(UserBody(2), "add2", None, None))
    else Some(Task(UserBody(3), "multiply", None, None))
  }

  /** Nodes 0 to 4 are root, End, add1, add2 and multiply, each with its task and a zero counter. */
  ghost predicate FiveNodes(wf: WorkFlow) {
    && WfValid(wf) && !wf.alreadyDone && wf.err == None
    && wf.root == 0 && wf.end == 1 && |wf.heap.nodes| == 5
    && (forall k :: 0 <= k < 5 ==> wf.heap.nodes[k].task == TaskOf(k) && wf.heap.nodes[k].depCompleted == 0)
  }

  /** The workflow with its five nodes allocated and no edge. */
  function Unconnected(): WorkFlow {
    WorkFlow(
      Heap([Node(TaskOf(0), [], 0, []), Node(TaskOf(1), [], 0, []), Node(TaskOf(2), [], 0, []),
            Node(TaskOf(3), [], 0, []), Node(TaskOf(4), [], 0, [])], []),
      0, 1, [], false, None)
  }

  lemma UnconnectedHasFiveNodes()
    ensures FiveNodes(Unconnected())
    ensures Name(Unconnected().heap.nodes[2]) == "add1" && Name(Unconnected().heap.nodes[3]) == "add2"
    ensures Name(Unconnected().heap.nodes[4]) == "multiply"
  {
  }

  /** `NewWorkFlow` and the three closure nodes of `buildWf`, not yet connected. */
  method AllocateNodes() returns (wf: WorkFlow)
    ensures wf == Unconnected()
  {
    var w0 := NewWorkFlow();
    var w1 := NewClosureNode(w0, 1, "add1");
    var w2 := NewClosureNode(w1.wf, 2, "add2");
    var w3 := NewClosureNode(w2.wf, 3, "multiply");
    wf := w3.wf;
    assert w0.heap.nodes == [Node(TaskOf(0), [], 0, []), Node(TaskOf(1), [], 0, [])] by {
      assert w0.heap.nodes[0] == Node(TaskOf(0), [], 0, []);
      assert w0.heap.nodes[1] == Node(TaskOf(1), [], 0, []);
    }
    assert wf.heap.nodes == w0.heap.nodes + [Node(TaskOf(2), [], 0, [])] + [Node(TaskOf(3), [], 0, [])]
                             + [Node(TaskOf(4), [], 0, [])];
    FiveNodeList(Node(TaskOf(0), [], 0, []), Node(TaskOf(1), [], 0, []), Node(TaskOf(2), [], 0, []),
                 Node(TaskOf(3), [], 0, []), Node(TaskOf(4), [], 0, []));
  }

  lemma FiveNodeList(a: Node, b: Node, c: Node, d: Node, e: Node)
    ensures [a, b] + [c] + [d] + [e] == [a, b, c, d, e]
  {
  }

  lemma SameNodesKeepFive(a: WorkFlow, b: WorkFlow)
    requires FiveNodes(a) && WfValid(b) && SameNodes(a, b) && SameState(a, b)
    ensures FiveNodes(b)
  {
  }

  /** `wf.AddTaskNode(t)` for a task with no dependency: one edge from the root. */
  lemma AddRootTask(wf: WorkFlow, k: NodeId)
    requires FiveNodes(wf) && k < 5
    ensures FiveNodes(AddTaskNode(wf, k, []))
    ensures AddTaskNode(wf, k, []).heap.edges == wf.heap.edges + [Edge(0, k)]
  {
    SameNodesKeepFive(wf, AddTaskNode(wf, k, []));
  }

  /** `wf.AddTaskNode(add1)` and `wf.AddTaskNode(add2)`. */
  method AddRootTasks(wf: WorkFlow) returns (r: WorkFlow)
    requires FiveNodes(wf) && wf.heap.edges == []
    ensures FiveNodes(r) && r.heap.edges == [Edge(0, 2), Edge(0, 3)]
  {
    AddRootTask(wf, 2);
    var w1 := AddTaskNode(wf, 2, []);
    AddRootTask(w1, 3);
    r := AddTaskNode(w1, 3, []);
  }

  /** `wf.AddTaskNode(multiply, add1, add2)`. */
  method AddJoinTask(wf: WorkFlow) returns (r: WorkFlow)
    requires FiveNodes(wf) && wf.heap.edges == [Edge(0, 2), Edge(0, 3)]
    ensures FiveNodes(r) && r.heap.edges == [Edge(0, 2), Edge(0, 3), Edge(2, 4), Edge(3, 4)]
  {
    r := AddTaskNode(wf, 4, [2, 3]);
    SameNodesKeepFive(wf, r);
    JoinEdges();
  }

  lemma JoinEdges()
    ensures [Edge(0, 2), Edge(0, 3)] + EdgesFromEach([2, 3], 4) ==
            [Edge(0, 2), Edge(0, 3), Edge(2, 4), Edge(3, 4)]
  {
    assert EdgesFromEach([2, 3], 4) == [Edge(2, 4), Edge(3, 4)];
  }

  /** The graph `buildWf` builds before `AutoConnectToEnd`. */
  method BuildGraph() returns (wf: WorkFlow)
    ensures FiveNodes(wf)
    ensures wf.heap.edges == [Edge(0, 2), Edge(0, 3), Edge(2, 4), Edge(3, 4)]
  {
    wf := AllocateNodes();
    UnconnectedHasFiveNodes();
    wf := AddRootTasks(wf);
    wf := AddJoinTask(wf);
  }

  lemma OnlyElement(order: seq<NodeId>, x: NodeId)
    requires Distinct(order)
    requires forall n :: n in order <==> n == x
    ensures order == [x]
  {
    DistinctSize(order);
    assert Elems(order) == {x};
    assert order[0] in order;
  }

  /** Before `AutoConnectToEnd`, `multiply` is the only childless edge target. */
  lemma OnlyMultiplyIsALeaf(wf: WorkFlow)
    requires WfValid(wf) && |wf.heap.nodes| == 5 && wf.root == 0
    requires wf.heap.edges == [Edge(0, 2), Edge(0, 3), Edge(2, 4), Edge(3, 4)]
    ensures ChildlessTargets(wf) == {4}
  {
    ChildlessIffNoOutgoing(wf, 2);
    ChildlessIffNoOutgoing(wf, 3);
    ChildlessIffNoOutgoing(wf, 4);
    assert wf.heap.edges[0].from == 0 && wf.heap.edges[2].from == 2 && wf.heap.edges[3].from == 3;
    assert wf.edges[2] == 2;
    ChildlessTargetIn(wf, 2);
  }

  /** `buildWf`: the graph above, linked to `End`. */
  method BuildWf() returns (wf: WorkFlow)
    ensures FiveNodes(wf)
    ensures wf.heap.edges == [Edge(0, 2), Edge(0, 3), Edge(2, 4), Edge(3, 4), Edge(4, 1)]
  {
    var g := BuildGraph();
    var order;
    OnlyMultiplyIsALeaf(g);
    wf, order := AutoConnectToEnd(g);
    OnlyElement(order, 4);
    SameNodesKeepFive(g, wf);
  }

  /** Ranks 0, 4, 1, 1, 2 for root, End, add1, add2, multiply: every edge climbs. */
  lemma BuiltWfIsADag(wf: WorkFlow)
    requires WfValid(wf) && wf.root == 0 && wf.end == 1 && |wf.heap.nodes| == 5
    requires wf.heap.edges == [Edge(0, 2), Edge(0, 3), Edge(2, 4), Edge(3, 4), Edge(4, 1)]
    ensures wf.heap.nodes[wf.root].dependency == []
    ensures Acyclic(wf.heap) && SourcesFed(wf)
  {
    var rank: seq<nat> := [0, 4, 1, 1, 2];
    assert Ranked(wf.heap, rank);
    UnfedIffNoIncoming(wf, 0);
    FedVia(wf, 2, 0);
    FedVia(wf, 3, 1);
    FedVia(wf, 4, 2);
  }

  /** A node that edge `e` enters has a dependency edge. */
  lemma FedVia(wf: WorkFlow, n: NodeId, e: EdgeId)
    requires WfValid(wf) && n < |wf.heap.nodes| && e < |wf.heap.edges| && wf.heap.edges[e].to == n
    ensures e in wf.heap.nodes[n].dependency
  {
    assert IsDependencyList(wf.heap, n, wf.heap.nodes[n].dependency);
  }

  /** Once every edge source is sorted, so is every node an edge enters. */
  lemma ReachedVia(wf: WorkFlow, sorted: seq<NodeId>, n: NodeId, e: EdgeId)
    requires WfValid(wf) && n < |wf.heap.nodes| && e < |wf.heap.edges| && wf.heap.edges[e].to == n
    requires ClosedUnderIncoming(wf, sorted)
    requires forall e :: 0 <= e < |wf.heap.edges| ==> wf.heap.edges[e].from in sorted
    ensures n in sorted
  {
    FedVia(wf, n, e);
    assert IsDependencyList(wf.heap, n, wf.heap.nodes[n].dependency);
  }

  /** `TestWorkFlow_CheckDAG`: the check passes and the visitor sees every node once. */
  method CheckBuiltWf() returns (ok: bool, visits: seq<NodeId>)
    ensures ok
    ensures Distinct(visits) && forall n :: 0 <= n < 5 ==> n in visits
  {
    var wf := BuildWf();
    BuiltWfIsADag(wf);
    var sorted;
    ok, sorted, visits := CheckDAG(wf, true);
    ReachedVia(wf, sorted, 1, 4);
    ReachedVia(wf, sorted, 2, 0);
    ReachedVia(wf, sorted, 3, 1);
    ReachedVia(wf, sorted, 4, 2);
  }
}

=== FILE: task.dfy ===
/**
 * Tasks, task nodes and the edges between them.
 *
 * Go pointers to nodes and edges become indices into a `Heap`: a node is an
 * index into `nodes` and an edge is an index into `edges`. Edges therefore
 * keep their own identity: two edges with the same endpoints are two
 * different indices.
 */
module Task {
  import opened Wrappers

  type NodeId = nat
  type EdgeId = nat

  /** Identity of a pre- or post-process hook; its body is opaque. */
  type HookId = nat

  /**
   * The `ITask` a `Task` wraps. User closures are opaque and identified by
   * `id`; `EndBody` is the closure the workflow installs on its `End` node,
   * which marks the workflow done and returns nil.
   */
  datatype Body = UserBody(id: nat) | EndBody

  datatype Task = Task(
    body: Body,
    name: string,
    preProcess: Option<HookId>,
    postProcess: Option<HookId>)

  /** The three option constructors; a nil hook is `None`. */
  datatype TaskOption =
    | WithTaskName(name: string)
    | WithProProcess(pre: Option<HookId>)
    | WithPostProcess(post: Option<HookId>)

  datatype Edge = Edge(from: NodeId, to: NodeId)

  /** A node: an optional task, its incoming and outgoing edges, and its join counter. */
  datatype Node = Node(
    task: Option<Task>,
    dependency: seq<EdgeId>,
    depCompleted: int,
    children: seq<EdgeId>)

  /** Every node and every edge allocated so far. */
  datatype Heap = Heap(nodes: seq<Node>, edges: seq<Edge>)

  /** Result of allocating a node. */
  datatype Allocation = Allocation(heap: Heap, node: NodeId)

  /** Result of connecting two nodes. */
  datatype Connection = Connection(heap: Heap, edge: EdgeId)

  /** The result of `dependencySatisfied`: the answer and the node with its updated counter. */
  datatype Readiness = Readiness(ready: bool, node: Node)

  // ---------------------------------------------------------------------
  // Heap well-formedness: the edge lists stored on the nodes agree with the
  // edge table, because edges are only ever created by `Connect`.
  // ---------------------------------------------------------------------

  /** Strictly increasing, so creation order and without repeats. */
  ghost predicate Increasing(s: seq<nat>) {
    forall i, j :: 0 <= i < j < |s| ==> s[i] < s[j]
  }

  /** `es` lists, in creation order, exactly the edges leaving `n`. */
  ghost predicate IsChildList(h: Heap, n: NodeId, es: seq<EdgeId>) {
    && (forall i :: 0 <= i < |es| ==> es[i] < |h.edges| && h.edges[es[i]].from == n)
    && Increasing(es)
    && (forall e :: 0 <= e < |h.edges| && h.edges[e].from == n ==> e in es)
  }

  /** `es` lists, in creation order, exactly the edges entering `n`. */
  ghost predicate IsDependencyList(h: Heap, n: NodeId, es: seq<EdgeId>) {
    && (forall i :: 0 <= i < |es| ==> es[i] < |h.edges| && h.edges[es[i]].to == n)
    && Increasing(es)
    && (forall e :: 0 <= e < |h.edges| && h.edges[e].to == n ==> e in es)
  }

  ghost predicate Valid(h: Heap) {
    && (forall e :: 0 <= e < |h.edges| ==> h.edges[e].from < |h.nodes| && h.edges[e].to < |h.nodes|)
    && (forall n :: 0 <= n < |h.nodes| ==>
          IsChildList(h, n, h.nodes[n].children) && IsDependencyList(h, n, h.nodes[n].dependency))
  }

  // ---------------------------------------------------------------------
  // Task options
  // ---------------------------------------------------------------------

  function ApplyOption(t: Task, o: TaskOption): Task {
    match o
    case WithTaskName(name) => t.(name := name)
    case WithProProcess(p) => t.(preProcess := p)
    case WithPostProcess(p) => t.(postProcess := p)
  }

  /** Applies the options front to back, as the loop in `NewTaskNode` does. */
  function ApplyOptions(t: Task, opts: seq<TaskOption>): Task
    decreases |opts|
  {
    if |opts| == 0 then t else ApplyOptions(ApplyOption(t, opts[0]), opts[1..])
  }

  /** Reference reading of an option list: the name given by its last `WithTaskName`. */
  function LastName(opts: seq<TaskOption>): Option<string>
    decreases |opts|
  {
    if |opts| == 0 then None
    else if opts[|opts| - 1].WithTaskName? then Some(opts[|opts| - 1].name)
    else LastName(opts[..|opts| - 1])
  }

  /** The hook set by the last `WithProProcess`, or `None` when no option sets one. */
  function LastPre(opts: seq<TaskOption>): Option<Option<HookId>>
    decreases |opts|
  {
    if |opts| == 0 then None
    else if opts[|opts| - 1].WithProProcess? then Some(opts[|opts| - 1].pre)
    else LastPre(opts[..|opts| - 1])
  }

  /** The hook set by the last `WithPostProcess`, or `None` when no option sets one. */
  function LastPost(opts: seq<TaskOption>): Option<Option<HookId>>
    decreases |opts|
  {
    if |opts| == 0 then None
    else if opts[|opts| - 1].WithPostProcess? then Some(opts[|opts| - 1].post)
    else LastPost(opts[..|opts| - 1])
  }

  lemma {:induction false} ApplyOptionsSnoc(t: Task, opts: seq<TaskOption>, o: TaskOption)
    ensures ApplyOptions(t, opts + [o]) == ApplyOption(ApplyOptions(t, opts), o)
    decreases |opts|
  {
    if |opts| == 0 {
      assert (opts + [o])[1..] == [];
    } else {
      assert (opts + [o])[1..] == opts[1..] + [o];
      ApplyOptionsSnoc(ApplyOption(t, opts[0]), opts[1..], o);
    }
  }

  /**
   * Options are applied in order, so for each field the last option that
   * sets it wins, and a field no option sets keeps its value.
   */
  lemma {:induction false} ApplyOptionsLastWins(t: Task, opts: seq<TaskOption>)
    ensures ApplyOptions(t, opts).body == t.body
    ensures ApplyOptions(t, opts).name == LastName(opts).GetOr(t.name)
    ensures ApplyOptions(t, opts).preProcess == LastPre(opts).GetOr(t.preProcess)
    ensures ApplyOptions(t, opts).postProcess == LastPost(opts).GetOr(t.postProcess)
    decreases |opts|
  {
    if |opts| > 0 {
      var init := opts[..|opts| - 1];
      assert opts == init + [opts[|opts| - 1]];
      ApplyOptionsSnoc(t, init, opts[|opts| - 1]);
      ApplyOptionsLastWins(t, init);
    }
  }

  /** The task `NewTaskNode` builds: a bare task with every option applied in order. */
  function NewTask(body: Body, opts: seq<TaskOption>): (t: Task)
    ensures t.body == body
    ensures t.name == LastName(opts).GetOr("")
    ensures t.preProcess == LastPre(opts).GetOr(None)
    ensures t.postProcess == LastPost(opts).GetOr(None)
  {
    ApplyOptionsLastWins(Task(body, "", None, None), opts);
    ApplyOptions(Task(body, "", None, None), opts)
  }

  // ---------------------------------------------------------------------
  // Node construction and naming
  // ---------------------------------------------------------------------

  /** The node's task name, or "nil" for a task-less node. */
  function Name(n: Node): string {
    match n.task
    case None => "nil"
    case Some(t) => t.name
  }

  /** Allocates a node with a task built from `body` and the options. */
  function NewTaskNode(h: Heap, body: Body, opts: seq<TaskOption>): (r: Allocation)
    ensures r.node == |h.nodes| && |r.heap.nodes| == |h.nodes| + 1
    ensures r.heap.nodes[..|h.nodes|] == h.nodes && r.heap.edges == h.edges
    ensures r.heap.nodes[r.node].task == Some(NewTask(body, opts))
    ensures Name(r.heap.nodes[r.node]) == LastName(opts).GetOr("")
    ensures r.heap.nodes[r.node].dependency == [] && r.heap.nodes[r.node].children == []
    ensures r.heap.nodes[r.node].depCompleted == 0
    ensures Valid(h) ==> Valid(r.heap)
  {
    Allocation(Heap(h.nodes + [Node(Some(NewTask(body, opts)), [], 0, [])], h.edges), |h.nodes|)
  }

  /** Allocates a structural node: no task, no edges, zero counter. */
  function NewNilTaskNode(h: Heap): (r: Allocation)
    ensures r.node == |h.nodes| && |r.heap.nodes| == |h.nodes| + 1
    ensures r.heap.nodes[..|h.nodes|] == h.nodes && r.heap.edges == h.edges
    ensures r.heap.nodes[r.node].task == None
    ensures Name(r.heap.nodes[r.node]) == "nil"
    ensures r.heap.nodes[r.node].dependency == [] && r.heap.nodes[r.node].children == []
    ensures r.heap.nodes[r.node].depCompleted == 0
    ensures Valid(h) ==> Valid(r.heap)
  {
    Allocation(Heap(h.nodes + [Node(None, [], 0, [])], h.edges), |h.nodes|)
  }

  /** `Name` of a fresh node reports the last name option given, "" when none is, and "nil" for a task-less node. */
  lemma NameOfNewNodes(h: Heap, body: Body, opts: seq<TaskOption>)
    ensures Name(NewTaskNode(h, body, opts).heap.nodes[|h.nodes|]) == LastName(opts).GetOr("")
    ensures Name(NewNilTaskNode(h).heap.nodes[|h.nodes|]) == "nil"
  {
  }

  // ---------------------------------------------------------------------
  // connect and dependencySatisfied
  // ---------------------------------------------------------------------

  /**
   * Creates one new edge `from -> to`, appends it to the children of `from`
   * and to the dependencies of `to`; nothing else changes.
   */
  function Connect(h: Heap, from: NodeId, to: NodeId): (r: Connection)
    requires from < |h.nodes| && to < |h.nodes|
    ensures r.edge == |h.edges| && r.heap.edges == h.edges + [Edge(from, to)]
    ensures |r.heap.nodes| == |h.nodes|
    ensures forall n :: 0 <= n < |h.nodes| ==>
              && r.heap.nodes[n].task == h.nodes[n].task
              && r.heap.nodes[n].depCompleted == h.nodes[n].depCompleted
              && r.heap.nodes[n].children == h.nodes[n].children + (if n == from then [r.edge] else [])
              && r.heap.nodes[n].dependency == h.nodes[n].dependency + (if n == to then [r.edge] else [])
  {
    var e := |h.edges|;
    var ns := h.nodes[from := h.nodes[from].(children := h.nodes[from].children + [e])];
    var ns' := ns[to := ns[to].(dependency := ns[to].dependency + [e])];
    Connection(Heap(ns', h.edges + [Edge(from, to)]), e)
  }

  /** Appending a fresh edge id keeps a child list exact when it is appended exactly for its source. */
  lemma AppendKeepsChildList(h: Heap, h': Heap, n: NodeId, es: seq<EdgeId>, es': seq<EdgeId>)
    requires IsChildList(h, n, es)
    requires |h'.edges| == |h.edges| + 1 && h'.edges[..|h.edges|] == h.edges
    requires es' == es + (if h'.edges[|h.edges|].from == n then [|h.edges|] else [])
    ensures IsChildList(h', n, es')
  {
    forall e | 0 <= e < |h'.edges| && h'.edges[e].from == n
      ensures e in es'
    {
      if e < |h.edges| {
        assert h.edges[e] == h'.edges[e];
      }
    }
  }

  /** Appending a fresh edge id keeps a dependency list exact when it is appended exactly for its target. */
  lemma AppendKeepsDependencyList(h: Heap, h': Heap, n: NodeId, es: seq<EdgeId>, es': seq<EdgeId>)
    requires IsDependencyList(h, n, es)
    requires |h'.edges| == |h.edges| + 1 && h'.edges[..|h.edges|] == h.edges
    requires es' == es + (if h'.edges[|h.edges|].to == n then [|h.edges|] else [])
    ensures IsDependencyList(h', n, es')
  {
    forall e | 0 <= e < |h'.edges| && h'.edges[e].to == n
      ensures e in es'
    {
      if e < |h.edges| {
        assert h.edges[e] == h'.edges[e];
      }
    }
  }

  lemma ConnectPreservesValid(h: Heap, from: NodeId, to: NodeId)
    requires Valid(h) && from < |h.nodes| && to < |h.nodes|
    ensures Valid(Connect(h, from, to).heap)
  {
    var r := Connect(h, from, to);
    assert r.heap.edges[..|h.edges|] == h.edges;
    forall n | 0 <= n < |r.heap.nodes|
      ensures IsChildList(r.heap, n, r.heap.nodes[n].children)
      ensures IsDependencyList(r.heap, n, r.heap.nodes[n].dependency)
    {
      AppendKeepsChildList(h, r.heap, n, h.nodes[n].children, r.heap.nodes[n].children);
      AppendKeepsDependencyList(h, r.heap, n, h.nodes[n].dependency, r.heap.nodes[n].dependency);
    }
  }

  /**
   * `dependencySatisfied`: nodes with zero or one dependency are ready and
   * keep their counter; a join node counts one more arrival and is ready
   * exactly when the counter reaches its number of dependencies.
   */
  function DependencySatisfied(n: Node): (r: Readiness)
    ensures |n.dependency| <= 1 ==> r.ready && r.node == n
    ensures |n.dependency| >= 2 ==>
              && r.node == n.(depCompleted := n.depCompleted + 1)
              && (r.ready <==> r.node.depCompleted == |n.dependency|)
  {
    if |n.dependency| == 0 || |n.dependency| == 1 then Readiness(true, n)
    else
      var n' := n.(depCompleted := n.depCompleted + 1);
      Readiness(n'.depCompleted == |n.dependency|, n')
  }

  /** The answers of `k` successive `dependencySatisfied` calls on one node. */
  function Arrivals(n: Node, k: nat): (r: seq<bool>)
    ensures |r| == k
    decreases k
  {
    if k == 0 then []
    else
      var s := DependencySatisfied(n);
      [s.ready] + Arrivals(s.node, k - 1)
  }

  /**
   * Successive calls: every call answers true on a node with at most one
   * dependency; on a join node the call numbered i (from 0) answers true
   * exactly when the counter it starts from plus i + 1 equals the number of
   * dependencies.
   */
  lemma {:induction false} ArrivalsCount(n: Node, k: nat)
    ensures |n.dependency| <= 1 ==> forall i :: 0 <= i < k ==> Arrivals(n, k)[i]
    ensures |n.dependency| >= 2 ==>
              forall i :: 0 <= i < k ==> (Arrivals(n, k)[i] <==> n.depCompleted + i + 1 == |n.dependency|)
    decreases k
  {
    if k > 0 {
      var s := DependencySatisfied(n);
      ArrivalsCount(s.node, k - 1);
      assert Arrivals(n, k) == [s.ready] + Arrivals(s.node, k - 1);
      forall i | 1 <= i < k
        ensures Arrivals(n, k)[i] == Arrivals(s.node, k - 1)[i - 1]
      {
      }
    }
  }

  /**
   * On a fresh join node with N dependencies, successive calls answer true
   * exactly once, on the N-th call, and never afterwards.
   */
  lemma JoinReadyOnNthCallOnly(n: Node, k: nat)
    requires |n.dependency| >= 2 && n.depCompleted == 0
    ensures forall i :: 0 <= i < k ==> (Arrivals(n, k)[i] <==> i + 1 == |n.dependency|)
  {
    ArrivalsCount(n, k);
  }
}

=== FILE: workflow.dfy ===
/**
 * The workflow: its anchors, its registered edge list, its completion state,
 * and the operations that build the graph.
 */
module Workflow {
  import opened Wrappers
  import opened Task

  /** An opaque error value (a task's error or the context's error). */
  datatype Error = Error(code: nat)

  /**
   * A workflow. `heap` holds every node and edge; `root` and `end` are the
   * anchors; `edges` is the list of registered edges; `alreadyDone` is the
   * one-shot completion flag (the closed channel and the fired `sync.Once`
   * coincide with it); `err` is the recorded error.
   */
  datatype WorkFlow = WorkFlow(
    heap: Heap,
    root: NodeId,
    end: NodeId,
    edges: seq<EdgeId>,
    alreadyDone: bool,
    err: Option<Error>)

  /**
   * Well-formed workflow: a valid heap, both anchors allocated and distinct,
   * and every edge ever created registered, in creation order (every
   * `connect` goes through `AddTaskNode` or `ConnectToEnd`).
   */
  ghost predicate WfValid(wf: WorkFlow) {
    && Valid(wf.heap)
    && wf.root < |wf.heap.nodes| && wf.end < |wf.heap.nodes| && wf.root != wf.end
    && |wf.edges| == |wf.heap.edges|
    && (forall i :: 0 <= i < |wf.edges| ==> wf.edges[i] == i)
  }

  /** `r` has the same nodes as `wf` up to their edge lists: same tasks, same counters. */
  ghost predicate SameNodes(wf: WorkFlow, r: WorkFlow) {
    && |r.heap.nodes| == |wf.heap.nodes|
    && (forall n :: 0 <= n < |wf.heap.nodes| ==>
          r.heap.nodes[n].task == wf.heap.nodes[n].task &&
          r.heap.nodes[n].depCompleted == wf.heap.nodes[n].depCompleted)
  }

  lemma SameNodesTransitive(a: WorkFlow, b: WorkFlow, c: WorkFlow)
    requires SameNodes(a, b) && SameNodes(b, c)
    ensures SameNodes(a, c)
  {
  }

  /** Anchors and completion state are untouched. */
  ghost predicate SameState(wf: WorkFlow, r: WorkFlow) {
    r.root == wf.root && r.end == wf.end && r.alreadyDone == wf.alreadyDone && r.err == wf.err
  }

  /**
   * A fresh workflow: a task-less root and an `End` node named "end" whose
   * task marks the workflow done; no edges, not done, no error.
   */
  function NewWorkFlow(): (wf: WorkFlow)
    ensures WfValid(wf)
    ensures wf.heap.nodes[wf.root].task == None
    ensures wf.heap.nodes[wf.end].task == Some(Task(EndBody, "end", None, None))
    ensures wf.root == 0 && wf.end == 1
    ensures |wf.heap.nodes| == 2 && wf.heap.edges == [] && wf.edges == []
    ensures forall n :: 0 <= n < 2 ==>
              wf.heap.nodes[n].dependency == [] && wf.heap.nodes[n].children == [] &&
              wf.heap.nodes[n].depCompleted == 0
    ensures !wf.alreadyDone && wf.err == None
  {
    var root := NewNilTaskNode(Heap([], []));
    var end := NewTaskNode(root.heap, EndBody, [WithTaskName("end")]);
    WorkFlow(end.heap, root.node, end.node, [], false, None)
  }

  /**
   * `done`: the first call sets `alreadyDone`; a later call changes nothing.
   * Nothing but the flag ever changes.
   */
  function Done(wf: WorkFlow): (r: WorkFlow)
    ensures r.alreadyDone
    ensures wf.alreadyDone ==> r == wf
    ensures r.(alreadyDone := wf.alreadyDone) == wf
  {
    if wf.alreadyDone then wf else wf.(alreadyDone := true)
  }

  lemma DoneIdempotent(wf: WorkFlow)
    ensures Done(Done(wf)) == Done(wf)
  {
  }

  /**
   * `errDone`: records `e` unconditionally, overwriting any earlier error,
   * even when the workflow is already done, and then calls `done`.
   */
  function ErrDone(wf: WorkFlow, e: Error): (r: WorkFlow)
    ensures r.err == Some(e) && r.alreadyDone
    ensures r.(err := wf.err, alreadyDone := wf.alreadyDone) == wf
  {
    Done(wf.(err := Some(e)))
  }

  /** The recorded error is the last one passed to `errDone`, not the first. */
  lemma ErrDoneLastWins(wf: WorkFlow, e1: Error, e2: Error)
    ensures ErrDone(ErrDone(wf, e1), e2).err == Some(e2)
    ensures ErrDone(ErrDone(wf, e1), e2) == ErrDone(wf, e2).(alreadyDone := true)
  {
  }

  /** Connects `from` to `to` and registers the new edge with the workflow. */
  function ConnectEdge(wf: WorkFlow, from: NodeId, to: NodeId): (r: WorkFlow)
    requires WfValid(wf) && from < |wf.heap.nodes| && to < |wf.heap.nodes|
    ensures WfValid(r) && SameState(wf, r) && SameNodes(wf, r)
    ensures r.heap == Connect(wf.heap, from, to).heap
    ensures r.heap.edges == wf.heap.edges + [Edge(from, to)]
    ensures forall n :: 0 <= n < |wf.heap.nodes| && n != from && n != to ==> r.heap.nodes[n] == wf.heap.nodes[n]
  {
    ConnectPreservesValid(wf.heap, from, to);
    var c := Connect(wf.heap, from, to);
    wf.(heap := c.heap, edges := wf.edges + [c.edge])
  }

  /** `ConnectToEnd`: registers one new edge `n -> End`. */
  function ConnectToEnd(wf: WorkFlow, n: NodeId): (r: WorkFlow)
    requires WfValid(wf) && n < |wf.heap.nodes|
    ensures WfValid(r) && SameState(wf, r) && SameNodes(wf, r)
    ensures r.heap == Connect(wf.heap, n, wf.end).heap
    ensures r.heap.edges == wf.heap.edges + [Edge(n, wf.end)]
  {
    ConnectEdge(wf, n, wf.end)
  }

  /** The edges `deps[i] -> node`, in argument order. */
  function EdgesFromEach(deps: seq<NodeId>, node: NodeId): (r: seq<Edge>)
    ensures |r| == |deps|
    ensures forall i :: 0 <= i < |deps| ==> r[i] == Edge(deps[i], node)
  {
    seq(|deps|, i requires 0 <= i < |deps| => Edge(deps[i], node))
  }

  lemma EdgesFromEachCons(deps: seq<NodeId>, node: NodeId)
    requires |deps| > 0
    ensures EdgesFromEach(deps, node) == [Edge(deps[0], node)] + EdgesFromEach(deps[1..], node)
  {
  }

  lemma ConcatAssoc(a: seq<Edge>, b: seq<Edge>, c: seq<Edge>)
    ensures (a + b) + c == a + (b + c)
  {
  }

  /** Registers one edge `deps[i] -> node` per dependency, front to back. */
  function ConnectDeps(wf: WorkFlow, deps: seq<NodeId>, node: NodeId): (r: WorkFlow)
    requires WfValid(wf) && node < |wf.heap.nodes|
    requires forall i :: 0 <= i < |deps| ==> deps[i] < |wf.heap.nodes|
    ensures WfValid(r) && SameState(wf, r) && SameNodes(wf, r)
    decreases |deps|
  {
    if |deps| == 0 then wf
    else
      var wf' := ConnectEdge(wf, deps[0], node);
      assert forall i :: 0 <= i < |deps[1..]| ==> deps[1..][i] < |wf'.heap.nodes|;
      var r := ConnectDeps(wf', deps[1..], node);
      SameNodesTransitive(wf, wf', r);
      r
  }

  /** `ConnectDeps` appends exactly the edges `deps[i] -> node`, in argument order. */
  lemma {:induction false} ConnectDepsAppends(wf: WorkFlow, deps: seq<NodeId>, node: NodeId)
    requires WfValid(wf) && node < |wf.heap.nodes|
    requires forall i :: 0 <= i < |deps| ==> deps[i] < |wf.heap.nodes|
    ensures ConnectDeps(wf, deps, node).heap.edges == wf.heap.edges + EdgesFromEach(deps, node)
    decreases |deps|
  {
    if |deps| > 0 {
      var wf' := ConnectEdge(wf, deps[0], node);
      assert forall i :: 0 <= i < |deps[1..]| ==> deps[1..][i] < |wf'.heap.nodes|;
      ConnectDepsAppends(wf', deps[1..], node);
      EdgesFromEachCons(deps, node);
      ConcatAssoc(wf.heap.edges, [Edge(deps[0], node)], EdgesFromEach(deps[1..], node));
    }
  }

  /** `ConnectDeps` leaves every node that is neither `node` nor a dependency unchanged. */
  lemma {:induction false} ConnectDepsFrames(wf: WorkFlow, deps: seq<NodeId>, node: NodeId, n: NodeId)
    requires WfValid(wf) && node < |wf.heap.nodes|
    requires forall i :: 0 <= i < |deps| ==> deps[i] < |wf.heap.nodes|
    requires n < |wf.heap.nodes| && n != node && n !in deps
    ensures ConnectDeps(wf, deps, node).heap.nodes[n] == wf.heap.nodes[n]
    decreases |deps|
  {
    if |deps| > 0 {
      var wf' := ConnectEdge(wf, deps[0], node);
      assert forall i :: 0 <= i < |deps[1..]| ==> deps[1..][i] < |wf'.heap.nodes|;
      assert n !in deps[1..];
      ConnectDepsFrames(wf', deps[1..], node, n);
    }
  }

  /**
   * `AddTaskNode`: with no dependencies, registers exactly one edge
   * `root -> node`; otherwise exactly one edge `deps[i] -> node` per
   * dependency, in argument order, and no root edge. Only the nodes at
   * the two ends of the new edges change, and only in their edge lists.
   */
  function AddTaskNode(wf: WorkFlow, node: NodeId, deps: seq<NodeId>): (r: WorkFlow)
    requires WfValid(wf) && node < |wf.heap.nodes|
    requires forall i :: 0 <= i < |deps| ==> deps[i] < |wf.heap.nodes|
    ensures WfValid(r) && SameState(wf, r) && SameNodes(wf, r)
    ensures |deps| == 0 ==> r.heap.edges == wf.heap.edges + [Edge(wf.root, node)]
    ensures |deps| > 0 ==> r.heap.edges == wf.heap.edges + EdgesFromEach(deps, node)
    ensures forall n :: 0 <= n < |wf.heap.nodes| && n != node && n !in deps && (|deps| == 0 ==> n != wf.root) ==>
              r.heap.nodes[n] == wf.heap.nodes[n]
  {
    if |deps| == 0 then ConnectEdge(wf, wf.root, node)
    else
      ConnectDepsAppends(wf, deps, node);
      forall n | 0 <= n < |wf.heap.nodes| && n != node && n !in deps
        ensures ConnectDeps(wf, deps, node).heap.nodes[n] == wf.heap.nodes[n]
      {
        ConnectDepsFrames(wf, deps, node, n);
      }
      ConnectDeps(wf, deps, node)
  }

  // ---------------------------------------------------------------------
  // AutoConnectToEnd
  // ---------------------------------------------------------------------

  /** The targets of the first `k` registered edges that have no children. */
  function ChildlessTargetsAmong(wf: WorkFlow, k: nat): set<NodeId>
    requires WfValid(wf) && k <= |wf.edges|
  {
    set i | 0 <= i < k && |wf.heap.nodes[wf.heap.edges[wf.edges[i]].to].children| == 0
      :: wf.heap.edges[wf.edges[i]].to
  }

  /** Every childless node that is the target of a registered edge. */
  function ChildlessTargets(wf: WorkFlow): set<NodeId>
    requires WfValid(wf)
  {
    ChildlessTargetsAmong(wf, |wf.edges|)
  }

  ghost predicate Distinct(s: seq<NodeId>) {
    forall i, j :: 0 <= i < j < |s| ==> s[i] != s[j]
  }

  /**
   * What one `AutoConnectToEnd` does: `order` lists every node of
   * `ChildlessTargets(wf)` exactly once, and `r` has registered exactly one
   * new edge `n -> End` per such node, in that order.
   */
  ghost predicate AutoConnected(wf: WorkFlow, r: WorkFlow, order: seq<NodeId>)
    requires WfValid(wf)
  {
    && ConnectedSoFar(wf, r, order)
    && Distinct(order)
    && (forall n :: n in order <==> n in ChildlessTargets(wf))
  }

  lemma EdgesFromEachSnoc(deps: seq<NodeId>, d: NodeId, node: NodeId)
    ensures EdgesFromEach(deps + [d], node) == EdgesFromEach(deps, node) + [Edge(d, node)]
  {
  }

  /** What the second loop of `AutoConnectToEnd` has done after connecting `connected`. */
  ghost predicate ConnectedSoFar(wf: WorkFlow, r: WorkFlow, connected: seq<NodeId>)
    requires WfValid(wf)
  {
    && WfValid(r) && SameState(wf, r) && SameNodes(wf, r)
    && r.heap.edges == wf.heap.edges + EdgesFromEach(connected, wf.end)
    && (forall n :: 0 <= n < |wf.heap.nodes| && n !in connected ==>
          r.heap.nodes[n].children == wf.heap.nodes[n].children)
    && (forall n :: 0 <= n < |wf.heap.nodes| && n != wf.end ==>
          r.heap.nodes[n].dependency == wf.heap.nodes[n].dependency)
  }

  lemma ConnectedSoFarStep(wf: WorkFlow, r: WorkFlow, connected: seq<NodeId>, n: NodeId)
    requires WfValid(wf) && ConnectedSoFar(wf, r, connected) && n < |wf.heap.nodes|
    ensures ConnectedSoFar(wf, ConnectToEnd(r, n), connected + [n])
  {
    EdgesFromEachSnoc(connected, n, wf.end);
    var r' := ConnectToEnd(r, n);
    assert r'.heap.edges == (wf.heap.edges + EdgesFromEach(connected, wf.end)) + [Edge(n, wf.end)];
  }

  /** `endNode` is split into the nodes still to connect and the distinct nodes already connected. */
  ghost predicate Split(endNode: set<NodeId>, remaining: set<NodeId>, connected: seq<NodeId>) {
    && remaining <= endNode
    && (forall n :: n in endNode ==> (n in remaining <==> n !in connected))
    && (forall n :: n in connected ==> n in endNode)
    && Distinct(connected)
  }

  lemma SplitStep(endNode: set<NodeId>, remaining: set<NodeId>, connected: seq<NodeId>, n: NodeId)
    requires Split(endNode, remaining, connected) && n in remaining
    ensures Split(endNode, remaining - {n}, connected + [n])
  {
  }

  /** The first loop of `AutoConnectToEnd`: the set of childless edge targets. */
  method CollectChildlessTargets(wf: WorkFlow) returns (endNode: set<NodeId>)
    requires WfValid(wf)
    ensures endNode == ChildlessTargets(wf)
  {
    endNode := {};
    var i := 0;
    while i < |wf.edges|
      invariant 0 <= i <= |wf.edges|
      invariant endNode == ChildlessTargetsAmong(wf, i)
    {
      var to := wf.heap.edges[wf.edges[i]].to;
      if |wf.heap.nodes[to].children| == 0 {
        endNode := endNode + {to};
      }
      i := i + 1;
    }
  }

  /**
   * The second loop of `AutoConnectToEnd`: connects every node of `endNode`
   * to `End`, each once, in an unspecified order (Go map iteration order).
   */
  method ConnectEachToEnd(wf: WorkFlow, endNode: set<NodeId>) returns (r: WorkFlow, connected: seq<NodeId>)
    requires WfValid(wf)
    requires forall n :: n in endNode ==> n < |wf.heap.nodes|
    ensures Distinct(connected)
    ensures forall n :: n in connected <==> n in endNode
    ensures ConnectedSoFar(wf, r, connected)
  {
    var remaining := endNode;
    r := wf;
    connected := [];
    while remaining != {}
      invariant ConnectedSoFar(wf, r, connected)
      invariant Split(endNode, remaining, connected)
      decreases |remaining|
    {
      var n :| n in remaining;
      ConnectedSoFarStep(wf, r, connected, n);
      SplitStep(endNode, remaining, connected, n);
      r := ConnectToEnd(r, n);
      connected := connected + [n];
      remaining := remaining - {n};
    }
  }

  /**
   * `AutoConnectToEnd`: first collects the childless edge targets, then
   * connects each to `End`; `connected` is the order that was taken.
   */
  method AutoConnectToEnd(wf: WorkFlow) returns (r: WorkFlow, connected: seq<NodeId>)
    requires WfValid(wf)
    ensures AutoConnected(wf, r, connected)
  {
    var endNode := CollectChildlessTargets(wf);
    r, connected := ConnectEachToEnd(wf, endNode);
  }

  /**
   * If `End` is not yet the target of any edge, then after `AutoConnectToEnd`
   * every edge target other than `End` has at least one child.
   */
  lemma AutoConnectLeavesNoOtherLeaf(wf: WorkFlow, r: WorkFlow, order: seq<NodeId>)
    requires WfValid(wf) && AutoConnected(wf, r, order)
    requires forall e :: 0 <= e < |wf.heap.edges| ==> wf.heap.edges[e].to != wf.end
    ensures forall e :: 0 <= e < |r.heap.edges| && r.heap.edges[e].to != r.end ==>
              |r.heap.nodes[r.heap.edges[e].to].children| > 0
  {
    var k := |wf.heap.edges|;
    forall e | 0 <= e < |r.heap.edges| && r.heap.edges[e].to != r.end
      ensures |r.heap.nodes[r.heap.edges[e].to].children| > 0
    {
      assert e < k;
      assert r.heap.edges[e] == wf.heap.edges[e];
      var t := wf.heap.edges[e].to;
      if |wf.heap.nodes[t].children| == 0 {
        assert wf.edges[e] == e;
        assert t in ChildlessTargets(wf);
        var j :| 0 <= j < |order| && order[j] == t;
        assert r.heap.edges[k + j] == Edge(t, wf.end);
        assert k + j in r.heap.nodes[t].children;
      } else {
        var c := wf.heap.nodes[t].children[0];
        assert wf.heap.edges[c].from == t;
        assert r.heap.edges[c] == wf.heap.edges[c];
        assert c in r.heap.nodes[t].children;
      }
    }
  }

  /** With `End` edge-free beforehand, one `AutoConnectToEnd` leaves `End` childless. */
  lemma AutoConnectKeepsEndChildless(wf: WorkFlow, r: WorkFlow, order: seq<NodeId>)
    requires WfValid(wf) && AutoConnected(wf, r, order)
    requires wf.heap.nodes[wf.end].children == [] && wf.heap.nodes[wf.end].dependency == []
    ensures wf.end !in order
    ensures r.heap.nodes[wf.end].children == []
  {
    assert forall e :: 0 <= e < |wf.heap.edges| ==> wf.heap.edges[e].to != wf.end;
  }

  /** With `End` edge-free beforehand, a call that connects anything makes `End` a childless edge target. */
  lemma AutoConnectMakesEndALeaf(wf: WorkFlow, r: WorkFlow, order: seq<NodeId>)
    requires WfValid(wf) && AutoConnected(wf, r, order)
    requires ChildlessTargets(wf) != {}
    requires wf.heap.nodes[wf.end].children == [] && wf.heap.nodes[wf.end].dependency == []
    ensures wf.end in ChildlessTargets(r)
  {
    var k := |wf.heap.edges|;
    AutoConnectKeepsEndChildless(wf, r, order);
    var n :| n in ChildlessTargets(wf);
    var j :| 0 <= j < |order| && order[j] == n;
    assert r.heap.edges[k + j] == Edge(n, wf.end);
    ChildlessTargetIn(r, k + j);
  }

  lemma ChildlessTargetIn(wf: WorkFlow, e: EdgeId)
    requires WfValid(wf) && e < |wf.heap.edges|
    requires |wf.heap.nodes[wf.heap.edges[e].to].children| == 0
    ensures wf.heap.edges[e].to in ChildlessTargets(wf)
  {
    assert wf.edges[e] == e;
  }

  /** Each childless edge target gets its edge to `End` among the new edges. */
  lemma AutoConnectLinksEachLeaf(wf: WorkFlow, r: WorkFlow, order: seq<NodeId>, n: NodeId)
    requires WfValid(wf) && AutoConnected(wf, r, order)
    requires n in ChildlessTargets(wf)
    ensures Edge(n, wf.end) in r.heap.edges[|wf.heap.edges|..]
  {
    var i :| 0 <= i < |order| && order[i] == n;
    assert r.heap.edges[|wf.heap.edges|..] == EdgesFromEach(order, wf.end);
  }

  /**
   * `AutoConnectToEnd` is not idempotent: when the first call connects at
   * least one node and `End` started with no edges at all, a second call
   * registers an `End -> End` edge.
   */
  lemma AutoConnectTwiceLinksEndToItself(
    wf: WorkFlow, r1: WorkFlow, o1: seq<NodeId>, r2: WorkFlow, o2: seq<NodeId>)
    requires WfValid(wf) && AutoConnected(wf, r1, o1) && AutoConnected(r1, r2, o2)
    requires ChildlessTargets(wf) != {}
    requires wf.heap.nodes[wf.end].children == [] && wf.heap.nodes[wf.end].dependency == []
    ensures Edge(wf.end, wf.end) in r2.heap.edges[|r1.heap.edges|..]
  {
    AutoConnectMakesEndALeaf(wf, r1, o1);
    AutoConnectLinksEachLeaf(r1, r2, o2, wf.end);
  }
}

=== FILE: wrappers.dfy ===
/** The optional-value datatype used for nil-able fields of the model. */
module Wrappers {

  /** A value that may be absent, standing in for a nil pointer or a nil func. */
  datatype Option<+T> = None | Some(value: T) {

    /** The encapsulated value, or `default` when there is none. */
    function GetOr(default: T): T {
      match this
      case Some(v) => v
      case None => default
    }
  }
}
